=== FILE: README.md ===
# SNMP protocol core, modelled in Dafny

This project models the decision logic of the PHP SNMP library (a FreeDSx
fork). It covers four parts:

- the protocol rule tables shared by both handlers (`ProtocolTrait`);
- the client orchestrator (`ClientProtocolHandler`). It builds the envelope, stamps request ids, and runs the SNMPv3 discovery and rediscovery handshake. It also exchanges datagrams and validates responses;
- the trap receiver (`TrapProtocolHandler`). It parses the peer address and filters each datagram by address, version, USM user, PDU class and community. It notifies the listener and answers an Inform with a Response;
- the OID walk (`SnmpWalk`).

Everything is modelled as pure functions over immutable datatypes. The
only loops are in the walk's batch processing.

| file | module | models |
|---|---|---|
| `outcomes.dfy` | `Outcomes` | `Option` and `Result` |
| `php_values.dfy` | `PhpValues` | option arrays as `map<string, Value>`, `array_merge`, array union `+`, `(int)` and `(string)` casts |
| `pdus.dfy` | `Pdus` | PDU classes and their context tags (section 3 of RFC 3416), OIDs, the PDU record |
| `messages.dfy` | `Messages` | v1/v2c/v3 envelopes (section 6 of RFC 3412), exceptions, sync/async outcomes |
| `protocol_trait.dfy` | `ProtocolTrait` | allowed request/response tables, `versionMap`, `isRequestAllowed`, `setPduId`, lazy socket and encoder |
| `client_protocol_handler.dfy` | `ClientProtocolHandler` | `handle`, `sendV3Message`, `performDiscovery`, `getMessageRequest`, `setPduId`, `generateMessageHeader`, `validateResponse`, `close` |
| `trap_protocol_handler.dfy` | `TrapProtocolHandler` | `handle`, `sendResponse`, `isIpAddressAllowed`, `isMessageAllowed`, `handleV3Trap`, `mergeOptionsFromUser`, `isUsmUserValid`, `isVersionAllowed` |
| `snmp_walk.dfy` | `SnmpWalk` | constructor defaults, `walk`, `isComplete`, `count`, `getNextOid`, `isEndOfSubtree` |

How the collaborators appear:

- **Id generator.** It is the sequence `idAt` of the ids it hands out. The v3 header takes the first id, and every stamp takes the next one.
- **Transport.** The function `exchange(n, message)` gives the reply to the n-th datagram written in a call: a decoded response, or a failure. A trap gets no reply, and the call settles with null at once.
- **SNMPv3 security module.**
  - It is a record of functions.
  - Every operation (`isDiscoveryRequestNeeded`, `getDiscoveryRequest`, `handleDiscoveryResponse`, `handleOutgoingMessage`, `handleIncomingMessage`) receives the call's options and may return or raise. Each also takes the attempt as an argument: false for the first, true for the forced rediscovery. So a module may raise on one attempt and not the other.
  - The factory returns `None` for an unknown security model.
- **Trap listener and decoder.** The listener is its `accept` and `getUsmUser` callbacks. The decoder is a function from the datagram to an optional request.
- **Effects of one call.**
  - **Sync and async outcomes.** A call either throws synchronously (`Threw`) or returns a promise that resolves or rejects (`Returned`).
  - **The deferred of the client's `handle`.** It is a `Promise` that can stay `Pending`, because some failures never reach it.
  - **The client's trace.** It records each attempt, discovery and datagram write.
  - **The trap receiver's run.** It records the contexts passed to the listener and the datagram it writes.

Where the code departs from what a reader might expect, the model follows
the code:

- **Set in SNMPv1.** Set is an allowed SNMPv1 request.
- **A disallowed request is still sent.** `handle` rejects the deferred for a disallowed request, then still stamps and sends the request.
- **What the v3 retry covers.** It covers only what the `try` block raises synchronously: the module's decision whether discovery is needed, the building of its probe, the awaited discovery and the outgoing transform. A rediscovery signal raised by the reply's `then` callback becomes a rejection and is not retried.
- **The walk callback.** The walk counts the OID that ends it but never passes it to the callback.
- **The walk's state.** There is no way to stop a walk other than the callback, and its count is never reset.
- **Invalid option types.**
  - A whitelist that is neither an array nor null violates `isIpAddressAllowed`'s `?array` parameter and throws a TypeError. `TrapSink` describes that option as "array or single IP".
  - A version filter that is not an integer or null violates `isVersionAllowed`'s `?int` parameter. The model treats it the same way, as a TypeError.

## Model

| member | source | states |
|---|---|---|
| ProtocolTrait.ResponseTableMatchesProtocols | src/FreeDSx/Snmp/Protocol/ProtocolTrait.php:50-62 | a tag is an allowed response exactly when it is Response, or Report from SNMPv2c on |
| ProtocolTrait.RequestTableMatchesProtocols | src/FreeDSx/Snmp/Protocol/ProtocolTrait.php:68-91 | a tag is an allowed request exactly when the version's protocol defines that operation: Get, GetNext, Set and Trap in v1; Get, GetNext, Set, GetBulk, Inform and SNMPv2-Trap in v2c and v3 |
| ProtocolTrait.VersionSpecificKinds | src/FreeDSx/Snmp/Protocol/ProtocolTrait.php:50-91 | Set is allowed in v1; GetBulk, Inform and SNMPv2-Trap never in v1; the v1 Trap never in v2c/v3; Report is a response only from v2c on; no response tag is an allowed request |
| ProtocolTrait.VersionMap | src/FreeDSx/Snmp/Protocol/ProtocolTrait.php:96-100 | defined exactly on the tags 0, 1, 3, mapping them to the public versions 1, 2, 3 |
| ProtocolTrait.IsRequestAllowed | src/FreeDSx/Snmp/Protocol/ProtocolTrait.php:124-127 | true exactly when the version's protocol defines the operation of the tag, and then the tag is a request class |
| ProtocolTrait.SetPduId | src/FreeDSx/Snmp/Protocol/ProtocolTrait.php:109-122 | only the id changes; it becomes the given id for request and response PDUs other than the v1 Trap, and the PDU is untouched otherwise |
| ProtocolTrait.SetPduIdLastWins | src/FreeDSx/Snmp/Protocol/ProtocolTrait.php:109-122 | stamping twice is stamping once with the later id |
| ProtocolTrait.AcquireSocket | src/FreeDSx/Snmp/Protocol/ProtocolTrait.php:134-166 | a held socket is returned as is; otherwise a transport other than `udp` (call options over handler options) is a connection error, and a new socket for the merged host and port becomes held |
| ProtocolTrait.SocketIsReused | src/FreeDSx/Snmp/Protocol/ProtocolTrait.php:136-137 | once a socket is held every later request gets that socket, whatever options it passes |
| ProtocolTrait.AcquireEncoder | src/FreeDSx/Snmp/Protocol/ProtocolTrait.php:171-178 | the encoder returned is the one the handler then holds, and a held encoder is kept |
| ProtocolTrait.EncoderIsCreatedOnce | src/FreeDSx/Snmp/Protocol/ProtocolTrait.php:171-178 | after the first call every call returns the same encoder and leaves the state alone |
| ClientProtocolHandler.HandlerOptions | src/FreeDSx/Snmp/Protocol/ClientProtocolHandler.php:71-97 | given options win over the defaults, defaults fill every missing key |
| ClientProtocolHandler.DefaultHandlerOptions | src/FreeDSx/Snmp/Protocol/ClientProtocolHandler.php:71-97 | with no options the client speaks v2c, community `public`, over UDP to localhost:161, without auth or priv, security model `usm` |
| ClientProtocolHandler.SetPduId | src/FreeDSx/Snmp/Protocol/ClientProtocolHandler.php:327-337 | every PDU but the v1 Trap gets the id; nothing else changes |
| ClientProtocolHandler.SetPduIdAgreesWithTrait | src/FreeDSx/Snmp/Protocol/ClientProtocolHandler.php:327-337 | the override agrees with the shared helper on every standard PDU class and differs on an unclassified one |
| ClientProtocolHandler.StampRequest | src/FreeDSx/Snmp/Protocol/ClientProtocolHandler.php:140-141 | stamping keeps the envelope's version, header and confirmed/unconfirmed class and stamps the carried PDU |
| ClientProtocolHandler.GenerateMessageHeader | src/FreeDSx/Snmp/Protocol/ClientProtocolHandler.php:345-379 | succeeds exactly when use_auth and use_priv are booleans and, if either is on, the model is `usm`; when both flags are booleans, either is on and the model name is an array or object, the failure is a type error (illegal offset), otherwise an invalid argument; AUTH iff use_auth, PRIV iff use_priv, REPORTABLE iff not an SNMPv2-Trap; the model is set only when auth or priv is on |
| ClientProtocolHandler.HeaderRegenerates | src/FreeDSx/Snmp/Protocol/ClientProtocolHandler.php:345-379 | a generated header is determined by its security level: the flags it carries, asked for again with the `usm` model, give back the same header |
| ClientProtocolHandler.GetMessageRequest | src/FreeDSx/Snmp/Protocol/ClientProtocolHandler.php:305-320 | integer version 1 gives v1 and 2 gives v2c with the community; 3 gives v3 with the generated header, no security parameters and a scoped PDU under the `context_name` cast to a string, a context name with no string form being a type error; the engine id is kept only when it is an EngineId; any other version is a runtime error; a header that cannot be built fails with the header's own error; the envelope carries the request |
| ClientProtocolHandler.ValidateResponse | src/FreeDSx/Snmp/Protocol/ClientProtocolHandler.php:387-420 | passes exactly when there is no message or the class is allowed, it is not a Report under throwOnReport, the id is expected or 0, and the status is 0; each failure reason implies the earlier checks passed; a Report failure lists every OID in order |
| ClientProtocolHandler.ValidateChecksIdExactly | src/FreeDSx/Snmp/Protocol/ClientProtocolHandler.php:410-416 | for an error-free Response, validation passes iff the id is the expected one or 0 |
| ClientProtocolHandler.ReportAlwaysFailsWhenThrowing | src/FreeDSx/Snmp/Protocol/ClientProtocolHandler.php:400-409 | with throwOnReport a Report fails whatever its id and status |
| ClientProtocolHandler.DiscoveryToleratesReport | src/FreeDSx/Snmp/Protocol/ClientProtocolHandler.php:284-295 | the report-tolerant validation of discovery accepts a well-formed v2c/v3 Report |
| ClientProtocolHandler.SendRequestGetResponse | src/FreeDSx/Snmp/Protocol/ClientProtocolHandler.php:170-207 | it throws iff no socket can be had, and then writes nothing; otherwise it writes exactly the message and settles with null for a trap, else with the transport's reply to that write or its failure |
| ClientProtocolHandler.PerformDiscovery | src/FreeDSx/Snmp/Protocol/ClientProtocolHandler.php:276-297 | a probe the module fails to build is thrown before any id is consumed or anything is written; otherwise it throws iff no socket can be had, and otherwise the module's probe is stamped with the next id and logged before any write, exactly one id is consumed, and the outcome is the report-tolerant, module-checked verdict on the transport's reply to that probe |
| ClientProtocolHandler.DiscoveryReply | src/FreeDSx/Snmp/Protocol/ClientProtocolHandler.php:284-295 | a discovery succeeds only with a v3 reply that passes report-tolerant validation and the module's check |
| ClientProtocolHandler.V3Reply | src/FreeDSx/Snmp/Protocol/ClientProtocolHandler.php:244-256 | a v3 result passes full validation against the stamped id; a transport rejection passes through; the module's incoming error becomes a rejection |
| ClientProtocolHandler.SendStamped | src/FreeDSx/Snmp/Protocol/ClientProtocolHandler.php:235-256 | only writes are added to the trace; a finished send has consumed one id and returned a promise that resolves only with a v3 reply passing full validation against that id; a rediscovery signal here comes from the outgoing transform of the stamped message |
| ClientProtocolHandler.TryAttempt | src/FreeDSx/Snmp/Protocol/ClientProtocolHandler.php:230-256 | an attempt logs its start, then a discovery exactly when forced or the module needs it and its probe builds, then writes only; the module's raise while deciding or building the probe is caught by the attempt, with nothing written; a finished attempt resolves only with a v3 reply validated against the last id it stamped; a caught message is still v3 and a rediscovery signal keeps the header |
| ClientProtocolHandler.DiscoverThenSend | src/FreeDSx/Snmp/Protocol/ClientProtocolHandler.php:231-237 | after a discovery is decided on, a probe the module fails to build is caught with nothing written; otherwise the attempt's trace is its start, one discovery, then writes only, and a finished attempt resolves only with a v3 reply validated against the last id it stamped |
| ClientProtocolHandler.DiscoveryErrorsAreCaught | src/FreeDSx/Snmp/Protocol/ClientProtocolHandler.php:230-233 | a raise from the module's discovery decision, or from building the probe once discovery is decided, is caught by the attempt with no message sent, on the message as it stood |
| ClientProtocolHandler.DiscoveryCheckErrors | src/FreeDSx/Snmp/Protocol/ClientProtocolHandler.php:231-265 | a security-model error from the discovery decision ends the call as a request failure; a rediscovery signal from it restarts the call with forced discovery |
| ClientProtocolHandler.Conclude | src/FreeDSx/Snmp/Protocol/ClientProtocolHandler.php:258-265 | a rediscovery signal or security-model error becomes a request failure carrying the discovery response; nothing of those two kinds escapes |
| ClientProtocolHandler.SendV3Message | src/FreeDSx/Snmp/Protocol/ClientProtocolHandler.php:220-266 | the call only extends the trace, and what it throws is never a bare rediscovery signal or security-model error |
| ClientProtocolHandler.SendV3MessageAttempts | src/FreeDSx/Snmp/Protocol/ClientProtocolHandler.php:226-265 | an unknown model fails before any attempt; otherwise the first event is an attempt with the given flag and there are one or two attempts, only one when already forced |
| ClientProtocolHandler.DiscoveryIffForcedOrNeeded | src/FreeDSx/Snmp/Protocol/ClientProtocolHandler.php:231-233 | discovery runs in an attempt iff it is forced or the module says it is needed, and the module builds the probe |
| ClientProtocolHandler.RediscoveryRetriesWithForcedDiscovery | src/FreeDSx/Snmp/Protocol/ClientProtocolHandler.php:258-261 | a rediscovery signal in the first attempt restarts the call once with forced discovery, on the message as it stood; the retry's first event after its start is a discovery iff the module builds the probe |
| ClientProtocolHandler.ForcedCallStartsWithDiscovery | src/FreeDSx/Snmp/Protocol/ClientProtocolHandler.php:226-233 | a call with discovery forced starts with an attempt, and its next event is a discovery, before any message write, iff the module builds the probe |
| ClientProtocolHandler.ForcedRediscoveryIsFatal | src/FreeDSx/Snmp/Protocol/ClientProtocolHandler.php:258-265 | on the forced attempt a rediscovery signal or security-model error is a request failure, after exactly one attempt |
| ClientProtocolHandler.ReplyRejectionIsNotRetried | src/FreeDSx/Snmp/Protocol/ClientProtocolHandler.php:244-256 | whatever the reply callback raises only rejects the promise; there is one attempt |
| ClientProtocolHandler.Handle | src/FreeDSx/Snmp/Protocol/ClientProtocolHandler.php:116-150 | an envelope that cannot be built is thrown before any I/O; a v1/v2c request throws a connection error with no write when no socket can be had, else is written once, stamped with the first id, and an allowed one's promise settles as the reply's validation against that id decides; a v3 request throws exactly what the v3 send throws; a disallowed one that returns is rejected with an invalid argument; an allowed one resolves with the v3 send's resolution and stays pending when the send rejects |
| ClientProtocolHandler.EnvelopeMatchesVersionOption | src/FreeDSx/Snmp/Protocol/ClientProtocolHandler.php:305-320 | a built envelope's version tag maps back to the `version` option; versions 1 and 2 always build |
| ClientProtocolHandler.SendV3MessageValidates | src/FreeDSx/Snmp/Protocol/ClientProtocolHandler.php:235-265 | a v3 send that returns consumed at least one id, and resolves only with a v3 reply passing full validation against the last id it stamped |
| ClientProtocolHandler.FinalAttemptValidates | src/FreeDSx/Snmp/Protocol/ClientProtocolHandler.php:258-265 | a send that concludes after one attempt resolves only with a reply validated against that attempt's last id |
| ClientProtocolHandler.RetryValidates | src/FreeDSx/Snmp/Protocol/ClientProtocolHandler.php:258-261 | a send retried with forced discovery resolves only with a reply validated against the retry's last id |
| ClientProtocolHandler.HandleResolvesOnlyValidatedV3 | src/FreeDSx/Snmp/Protocol/ClientProtocolHandler.php:135-147 | a v3 request's promise resolves only with a v3 reply that passed full validation against an id stamped after the header's |
| ClientProtocolHandler.DisallowedRequestIsStillSent | src/FreeDSx/Snmp/Protocol/ClientProtocolHandler.php:125-148 | a disallowed v1/v2c request rejects the promise and is still stamped and written |
| ClientProtocolHandler.FailedValidationLeavesPromisePending | src/FreeDSx/Snmp/Protocol/ClientProtocolHandler.php:142-147 | a v1/v2c reply that fails validation leaves the returned promise pending |
| ClientProtocolHandler.V3RejectionLeavesPromisePending | src/FreeDSx/Snmp/Protocol/ClientProtocolHandler.php:135-139 | an allowed v3 request whose send rejects leaves the returned promise pending, where the corrected handle rejects it with the send's error |
| ClientProtocolHandler.HandleCorrected | src/FreeDSx/Snmp/Protocol/ClientProtocolHandler.php:116-150 | the returned promise is never left pending |
| ClientProtocolHandler.CorrectedHandleRefusesBeforeSending | src/FreeDSx/Snmp/Protocol/ClientProtocolHandler.php:125-133 | the corrected handler rejects a disallowed request with no I/O and no state change |
| ClientProtocolHandler.CorrectedHandleAgreesWhenSettled | src/FreeDSx/Snmp/Protocol/ClientProtocolHandler.php:116-150 | where the written handler throws or settles an allowed request, the corrected one does exactly the same |
| ClientProtocolHandler.Close | src/FreeDSx/Snmp/Protocol/ClientProtocolHandler.php:157-163 | the held socket, if any, is released and none is held afterwards |
| ClientProtocolHandler.CloseIsIdempotent | src/FreeDSx/Snmp/Protocol/ClientProtocolHandler.php:157-163 | closing again releases nothing and changes nothing |
| TrapProtocolHandler.HandlerOptions | src/FreeDSx/Snmp/Protocol/TrapProtocolHandler.php:47-59 | given options win over the receiver's defaults, defaults fill every missing key |
| TrapProtocolHandler.DefaultsNameNoTransport | src/FreeDSx/Snmp/Protocol/TrapProtocolHandler.php:47-59 | the defaults name no transport, so without one from the caller no reply socket can be opened (the trap sink always passes `udp`) |
| TrapProtocolHandler.LastIndexOf | src/FreeDSx/Snmp/Protocol/TrapProtocolHandler.php:100 | none iff the character is absent; otherwise its position, with no occurrence after it |
| TrapProtocolHandler.ParsePeerAddress | src/FreeDSx/Snmp/Protocol/TrapProtocolHandler.php:100-122 | an address without `:` is refused; otherwise the port is the `(int)` cast of the text after the last `:` and the address the prefix with brackets trimmed |
| TrapProtocolHandler.ParsePlainAddress | src/FreeDSx/Snmp/Protocol/TrapProtocolHandler.php:100-122 | `host:port` parses back to the host and the port, for hosts that may themselves contain `:` |
| TrapProtocolHandler.ParseBracketedAddress | src/FreeDSx/Snmp/Protocol/TrapProtocolHandler.php:113-122 | `[host]:port` parses back to the host and the port |
| TrapProtocolHandler.ParsePortText | src/FreeDSx/Snmp/Protocol/TrapProtocolHandler.php:100-111 | `host:text` with no `:` in the text gives the host and the `(int)` cast of the text |
| TrapProtocolHandler.ParseExponentPort | src/FreeDSx/Snmp/Protocol/TrapProtocolHandler.php:108-111 | a port written `1e3` is read as 1000 |
| TrapProtocolHandler.IsIpAddressAllowed | src/FreeDSx/Snmp/Protocol/TrapProtocolHandler.php:243-252 | a whitelist array admits exactly its members, a null whitelist defers to the listener, anything else is a type error |
| TrapProtocolHandler.WhitelistOverridesListener | src/FreeDSx/Snmp/Protocol/TrapProtocolHandler.php:247-251 | with a whitelist array the listener's accept is irrelevant |
| TrapProtocolHandler.IsVersionAllowed | src/FreeDSx/Snmp/Protocol/TrapProtocolHandler.php:421-430 | no filter admits every version; a non-integer filter is a type error |
| TrapProtocolHandler.VersionFilterSelectsOneTag | src/FreeDSx/Snmp/Protocol/TrapProtocolHandler.php:421-430 | a filter of 1, 2 or 3 admits exactly the one message version that maps to it |
| TrapProtocolHandler.VersionFilterOutOfRange | src/FreeDSx/Snmp/Protocol/TrapProtocolHandler.php:421-430 | a filter outside 1..3 admits no message |
| TrapProtocolHandler.IsMessageAllowed | src/FreeDSx/Snmp/Protocol/TrapProtocolHandler.php:260-290 | admitted iff present, a notification class the version's protocol defines, and for v1/v2c under a community filter exactly that community |
| TrapProtocolHandler.AllowedNotificationsPerVersion | src/FreeDSx/Snmp/Protocol/TrapProtocolHandler.php:269-280 | an admitted v1 message carries the v1 Trap; an admitted v2c/v3 one carries SNMPv2-Trap or Inform |
| TrapProtocolHandler.CommunityIgnoredWithoutFilter | src/FreeDSx/Snmp/Protocol/TrapProtocolHandler.php:282-287 | without a community filter the community never matters |
| TrapProtocolHandler.IsUsmUserValid | src/FreeDSx/Snmp/Protocol/TrapProtocolHandler.php:394-413 | valid iff the user has the credentials of one of the three RFC 3414 security levels |
| TrapProtocolHandler.MergeOptionsFromUser | src/FreeDSx/Snmp/Protocol/TrapProtocolHandler.php:374-387 | exactly the seven USM keys take the user's settings; every other key is unchanged |
| TrapProtocolHandler.MergeOptionsLastUserWins | src/FreeDSx/Snmp/Protocol/TrapProtocolHandler.php:374-387 | merging a second user erases every trace of the first |
| TrapProtocolHandler.HandleV3Trap | src/FreeDSx/Snmp/Protocol/TrapProtocolHandler.php:313-366 | the trap is surfaced exactly when there is a known module, USM parameters with an engine id and a valid user, and the module's transform under that user's options gives a v3 request with a scoped PDU that is not an Inform; the surfaced message is that transformed request, and anything else (a raise included) gives null |
| TrapProtocolHandler.V3InformsAreDropped | src/FreeDSx/Snmp/Protocol/TrapProtocolHandler.php:354-360 | a v3 trap that gets through is an SNMPv2-Trap or is refused by the message filter |
| TrapProtocolHandler.EchoResponse | src/FreeDSx/Snmp/Protocol/TrapProtocolHandler.php:211-218 | the Response keeps the Inform's id, error status, error index and bindings |
| TrapProtocolHandler.EchoIsAcceptedByClient | src/FreeDSx/Snmp/Protocol/TrapProtocolHandler.php:211-222 | the echo of an error-free Inform passes the client's validation for the Inform's id |
| TrapProtocolHandler.SendResponse | src/FreeDSx/Snmp/Protocol/TrapProtocolHandler.php:201-235 | only v1/v2c envelopes are answered, with a v2c echo under the same community; with a socket held the answer goes out on it |
| TrapProtocolHandler.SecondInformAnsweredToFirstPeer | src/FreeDSx/Snmp/Protocol/TrapProtocolHandler.php:224-231 | after one answered Inform, the answer to an Inform from any other peer goes out on the first peer's socket |
| TrapProtocolHandler.SendResponseToPeer | src/FreeDSx/Snmp/Protocol/TrapProtocolHandler.php:201-235 | the corrected answer goes to the Inform's own sender and leaves the held socket alone |
| TrapProtocolHandler.InformAnsweredToItsPeer | src/FreeDSx/Snmp/Protocol/TrapProtocolHandler.php:224-231 | corrected, every Inform is answered on a socket for its own sender, whatever is held |
| TrapProtocolHandler.Dispatch | src/FreeDSx/Snmp/Protocol/TrapProtocolHandler.php:138-190 | the listener hears of a message only if it was decoded, passed the version filter and the v3 sub-flow, and is admitted; the promise resolves iff it heard |
| TrapProtocolHandler.Handle | src/FreeDSx/Snmp/Protocol/TrapProtocolHandler.php:93-191 | an address without a port rejects; the listener receives at most one context, only for an admitted address and message |
| TrapProtocolHandler.RefusedAddressIsNeverDecoded | src/FreeDSx/Snmp/Protocol/TrapProtocolHandler.php:124-138 | a refused address gives the same result whatever the data and decoder, notifies nobody and creates no encoder |
| TrapProtocolHandler.DispatchDelivers | src/FreeDSx/Snmp/Protocol/TrapProtocolHandler.php:138-190 | a decoded message of an allowed version that the v3 sub-flow surfaces and the filter admits reaches the listener once, with its address and public version; an Inform is resolved with the answer to it, any other notification with true |
| TrapProtocolHandler.AdmittedNotificationIsDelivered | src/FreeDSx/Snmp/Protocol/TrapProtocolHandler.php:93-191 | from a parsed, admitted address, a decoded, allowed and admitted v1, v2c or v3 notification is delivered as above |
| PhpValues.IntegerStringRoundTrip | src/FreeDSx/Snmp/Protocol/TrapProtocolHandler.php:108-111 | the `(int)` cast reads back the decimal text of any integer |
| PhpValues.MagnitudeOfDigits | src/FreeDSx/Snmp/Protocol/TrapProtocolHandler.php:108-111 | a string of digits alone casts to the number it denotes |
| PhpValues.MagnitudeWithExponent | src/FreeDSx/Snmp/Protocol/TrapProtocolHandler.php:108-111 | digits, `e`, digits cast to the mantissa times ten to the exponent |
| PhpValues.ScaledUp | src/FreeDSx/Snmp/Protocol/TrapProtocolHandler.php:108-111 | shifting by a non-negative exponent multiplies by the power of ten |
| PhpValues.ExponentIsRead | src/FreeDSx/Snmp/Protocol/TrapProtocolHandler.php:108-111 | `(int)"1e3"` is 1000 |
| PhpValues.FractionIsTruncated | src/FreeDSx/Snmp/Protocol/TrapProtocolHandler.php:108-111 | `(int)"-7.9"` is -7: the fraction is truncated toward zero |
| SnmpWalk.NewWalk | src/FreeDSx/Snmp/SnmpWalk.php:78-84 | the start is the given one, end and subtree flag as given, count 0 |
| SnmpWalk.DefaultWalk | src/FreeDSx/Snmp/SnmpWalk.php:70-84 | by default a walk covers 1.3.6.1.2.1 in subtree mode with 100 repetitions and no end |
| SnmpWalk.IsEndOfSubtree | src/FreeDSx/Snmp/SnmpWalk.php:233-236 | true iff the start OID is not a character prefix of the OID |
| SnmpWalk.IsComplete | src/FreeDSx/Snmp/SnmpWalk.php:115-128 | true iff endOfMibView, equal to the end OID, or out of the subtree in subtree mode |
| SnmpWalk.SiblingArcCountsAsInside | src/FreeDSx/Snmp/SnmpWalk.php:233-236 | from 1.3.6.1.2.1 the OID 1.3.6.1.2.10 counts as inside though it is not in the subtree |
| SnmpWalk.IsOutsideArcSubtree | src/FreeDSx/Snmp/SnmpWalk.php:233-236 | the corrected test is true iff the OID is neither the start nor below one of its arcs |
| SnmpWalk.ArcTestRefinesCharacterTest | src/FreeDSx/Snmp/SnmpWalk.php:233-236 | the arc test never stops inside the subtree, stops wherever the written test does, and stops at 1.3.6.1.2.10 |
| SnmpWalk.NextRequest | src/FreeDSx/Snmp/SnmpWalk.php:212-225 | GetBulk with the walk's repetitions and no non-repeaters iff not disabled and version at least 2, otherwise GetNext; anchored at the reference or at the start |
| SnmpWalk.GetBulkOnlyWhereAllowed | src/FreeDSx/Snmp/SnmpWalk.php:216 | the walk asks for GetBulk only where the client's version allows GetBulk requests |
| SnmpWalk.ProcessBatch | src/FreeDSx/Snmp/SnmpWalk.php:89-98 | each OID is counted before its test; the batch stops at the first complete OID or false callback; the callback sees exactly the counted OIDs except a completing one |
| SnmpWalk.TakeBatch | src/FreeDSx/Snmp/SnmpWalk.php:89-98 | a batch leaves the walk's settings alone; uncancelled, it counted every OID and none stopped it; cancelled, the count grew by exactly the position of the first OID that stopped it: no OID before that one stopped it |
| SnmpWalk.FirstStopUnique | src/FreeDSx/Snmp/SnmpWalk.php:90-96 | a batch has only one first stopping OID, so the count a cancelled batch leaves is determined |
| SnmpWalk.WalkFrom | src/FreeDSx/Snmp/SnmpWalk.php:86-107 | the first request is the walk's next request and every later one is anchored at the last OID of the previous batch in one fixed mode; each batch before the last passed every OID; the walk waits iff every answer was used, ends iff the last used answer is an empty batch, fails iff it is a request failure, with that error; it is cancelled only inside a non-empty batch some OID of which stopped it, the count then being the OIDs of the earlier batches plus the position of the first stopping OID in that batch; otherwise the count grows by exactly the OIDs received |

## Left out

- I/O, the event loop and promises. Datagrams, `Loop::futureTick`, `await` and `Deferred` become the explicit outcome datatypes. The callbacks run in the order they would run. There is no concurrency between calls.
- ASN.1 encoding and decoding, including the buffering of partial PDUs. The client's transport returns a decoded response or a failure. The receiver's decoder returns a request or nothing.
- The security module's cryptography, engine time and discovery state. Each of its operations is an uninterpreted function that returns a value or raises.
- Id generation (`IdGeneratorTrait` is not part of this model). Ids are an arbitrary sequence of integers.
- Error message texts. The only exception is the list of OIDs in a Report failure.
- The walk's setters (`subtreeOnly`, `startAt`, `endAt`, `useGetBulk`, `maxRepetitions`). They are field updates of the `Walk` record.
- Socket classes, `TrapSink`, `TrapServerRunner` and the sockets' options. These are plumbing.
- The client's encoder is not threaded through the client's state. Only the receiver records the encoder's creation.
- `ClientProtocolHandler.SendV3Message`: the security-model factory is assumed not to throw. When the model is unknown the model throws `UnknownSecurityModel` from outside the `try` block. In the source that call raises whatever the factory raises.
- `SnmpWalk.NextRequest`: the client's `version` option is taken as an integer. PHP's comparison of a string or null version with 2 is not modelled.
- `SnmpWalk.WalkFrom`: the agent's answers are a finite list, so a walk that would go on ends with `AwaitingReply`. The callback cannot change the walk's settings. Errors that the walk's `otherwise` handler rethrows are recorded as `WalkFailed`.
- `TrapProtocolHandler.IsVersionAllowed`: PHP's weak-mode coercion of a boolean, float or numeric-string filter to an integer is not modelled. Every non-integer filter is treated as a type error.
- `TrapProtocolHandler.IsIpAddressAllowed`: the `in_array` call with `strict = true` is modelled as equality of values.
- `TrapProtocolHandler.Handle`: the listener's `receive` is assumed not to throw. `accept` and `getUsmUser` are taken to return normally. A `getUsmUser` that throws is the same as one that returns null, because the source catches it.
- `PhpValues.IntegerStringRoundTrip`: integers are unbounded, so `(int)` saturation at PHP_INT_MAX is not modelled.
- `TrapProtocolHandler.ParsePeerAddress`: a port with a fraction or an exponent is read with exact decimal arithmetic. PHP reads it as a double, so a value beyond 2^53 rounds in PHP and not in the model, and one beyond PHP_INT_MAX saturates in PHP and not in the model.

## Findings

| source | as written | input that shows it | evidently intended | confidence | as-written member | corrected member |
|---|---|---|---|---|---|---|
| src/FreeDSx/Snmp/Protocol/TrapProtocolHandler.php:224-231 | `sendResponse` asks `socket()` for a socket to the Inform's sender. Once a socket is held, `socket()` returns it and ignores host and port. | An Inform from 10.0.0.1:162, then one from 10.0.0.2:162. The second Response goes to 10.0.0.1:162. | Each Response goes to the peer that sent the Inform. | medium; not executed | TrapProtocolHandler.SecondInformAnsweredToFirstPeer | TrapProtocolHandler.SendResponseToPeer |
| src/FreeDSx/Snmp/Protocol/ClientProtocolHandler.php:125-148 | A request the version does not allow rejects the deferred, but `handle` goes on to stamp and send it. | A GetBulk PDU with `version` 1: the promise rejects and the GetBulk datagram is still written. | Return the rejection without any I/O. | high; not executed | ClientProtocolHandler.DisallowedRequestIsStillSent | ClientProtocolHandler.HandleCorrected |
| src/FreeDSx/Snmp/Protocol/ClientProtocolHandler.php:142-147 | The v1/v2c validation throws inside a `then` callback that has no rejection path, so the deferred is never settled. | A v2c Get answered with a Response whose error status is 2: the returned promise stays pending. | Reject the deferred with the validation error. | high; not executed | ClientProtocolHandler.FailedValidationLeavesPromisePending | ClientProtocolHandler.HandleCorrected |
| src/FreeDSx/Snmp/Protocol/ClientProtocolHandler.php:135-139 | The v3 branch passes no rejection handler to `then`, so a rejected send never settles the deferred. | A v3 Get whose reply fails the module's incoming check: the returned promise stays pending. | Reject the deferred with the send's error. | high; not executed | ClientProtocolHandler.V3RejectionLeavesPromisePending | ClientProtocolHandler.HandleCorrected |
| src/FreeDSx/Snmp/SnmpWalk.php:233-236 | `isEndOfSubtree` compares character prefixes. | A walk from 1.3.6.1.2.1 receives 1.3.6.1.2.10 and goes on into the sibling subtree. | Compare by arcs: the start itself or the start followed by `.`. | medium; not executed | SnmpWalk.SiblingArcCountsAsInside | SnmpWalk.IsOutsideArcSubtree |

=== FILE: client_protocol_handler.dfy ===
/**
 * The client orchestrator: builds the envelope for a PDU, stamps ids,
 * runs the SNMPv3 discovery / rediscovery handshake, exchanges datagrams
 * and validates responses.
 *
 * The id generator, the transport and the security module are
 * parameters: the id generator is the sequence of ids it hands out, the
 * transport answers the n-th datagram written during a call, and the
 * security module's operations that may raise are indexed by the attempt
 * (false for the first, true for the forced rediscovery).
 */
module ClientProtocolHandler {
  import opened Outcomes
  import opened PhpValues
  import opened Pdus
  import opened Messages
  import opened ProtocolTrait

  /** `$securityModel`: the names `security_model` may take, with their ids. */
  const SecurityModels: map<string, int> := map["usm" := 3]

  /** The option defaults the constructor fills in. */
  const DefaultOptions: Options := map[
    "use_tls" := Bool(false), "ssl_validate_cert" := Bool(true), "ssl_allow_self_signed" := Null,
    "ssl_ca_cert" := Null, "ssl_peer_name" := Null, "user" := Null, "udp_retry" := Int(5),
    "timeout_connect" := Int(5), "timeout_read" := Int(10), "engine_id" := Null, "context_name" := Null,
    "auth_mech" := Null, "priv_mech" := Null, "priv_pwd" := Null, "auth_pwd" := Null, "id_min" := Null,
    "id_max" := Null, "transport" := Str("udp"), "port" := Int(161), "host" := Str("localhost"),
    "community" := Str("public"), "version" := Int(2), "security_model" := Str("usm"),
    "use_auth" := Bool(false), "use_priv" := Bool(false)]

  /** The options a handler holds after construction: the given ones over the defaults. */
  function HandlerOptions(given: Options): (o: Options)
    ensures o.Keys == given.Keys + DefaultOptions.Keys
    ensures forall k :: k in given ==> o[k] == given[k]
    ensures forall k :: k in DefaultOptions && k !in given ==> o[k] == DefaultOptions[k]
  {
    ArrayUnion(given, DefaultOptions)
  }

  /** Without options the handler speaks SNMPv2c with community `public` over UDP to localhost:161. */
  lemma DefaultHandlerOptions()
    ensures var o := HandlerOptions(map[]);
            Lookup(o, "version") == Int(2) && Lookup(o, "community") == Str("public")
            && Lookup(o, "transport") == Str("udp") && Lookup(o, "host") == Str("localhost")
            && Lookup(o, "port") == Int(161) && Lookup(o, "use_auth") == Bool(false)
            && Lookup(o, "use_priv") == Bool(false) && Lookup(o, "security_model") == Str("usm")
  {
    var o := HandlerOptions(map[]);
    assert "version" in DefaultOptions && "community" in DefaultOptions && "transport" in DefaultOptions;
    assert "host" in DefaultOptions && "port" in DefaultOptions && "use_auth" in DefaultOptions;
    assert "use_priv" in DefaultOptions && "security_model" in DefaultOptions;
  }

  /**
   * The handler's own `setPduId`: sets the id of every PDU but an SNMPv1
   * Trap and changes nothing else.
   */
  function SetPduId(p: Pdu, id: int): (r: Pdu)
    ensures r.kind == p.kind && r.errorStatus == p.errorStatus && r.errorIndex == p.errorIndex && r.oids == p.oids
    ensures p.kind == TrapV1Request ==> r == p
    ensures p.kind != TrapV1Request ==> r.id == id
  {
    if p.kind == TrapV1Request then p else p.(id := id)
  }

  /**
   * The override and the shared helper agree on every standard PDU class;
   * they differ only on a class that is neither request nor response.
   */
  lemma SetPduIdAgreesWithTrait(p: Pdu, id: int)
    ensures !p.kind.Unclassified? ==> SetPduId(p, id) == ProtocolTrait.SetPduId(p, id)
    ensures p.kind.Unclassified? && p.id != id ==> SetPduId(p, id) != ProtocolTrait.SetPduId(p, id)
  {
  }

  /** Stamps the PDU inside an envelope. */
  function StampRequest(m: Request, id: int): (r: Request)
    ensures r.Version() == m.Version()
    ensures r.RequestV3? <==> m.RequestV3?
    ensures r.RequestV3? ==> r.header == m.header
    ensures m.Payload().Some? ==> r.Payload() == Some(SetPduId(m.Payload().value, id))
    ensures m.Payload().None? ==> r == m
    ensures r.IsUnconfirmed() <==> m.IsUnconfirmed()
  {
    if m.Payload().Some? then m.WithPdu(SetPduId(m.Payload().value, id)) else m
  }

  /**
   * `isset($this->securityModel[$name])` for a `security_model` option
   * that is a legal array offset: the id of a known name, or None.
   */
  function SecurityModelId(name: Value): Option<int> {
    if name.Str? && name.s in SecurityModels then Some(SecurityModels[name.s]) else None
  }

  /** A value PHP refuses as an array offset: `isset` with it raises a TypeError. */
  predicate IllegalOffset(v: Value) {
    v.List? || v.EngineIdObject?
  }

  /**
   * `generateMessageHeader`: the v3 header for a request, with id `id`.
   * `use_auth` and `use_priv` must be booleans; the security model is set
   * only when one of them is on, and must then be a known name. An array
   * or object as the model's name is a type error in the `isset` lookup.
   */
  function GenerateMessageHeader(request: Pdu, options: Options, id: int): (r: Result<MessageHeader, Error>)
    ensures r.Success? <==>
              && Lookup(options, "use_auth").Bool? && Lookup(options, "use_priv").Bool?
              && (Lookup(options, "use_auth").b || Lookup(options, "use_priv").b ==>
                    Lookup(options, "security_model") == Str("usm"))
    ensures r.Failure? ==>
              r.error == (if Lookup(options, "use_auth").Bool? && Lookup(options, "use_priv").Bool?
                             && IllegalOffset(Lookup(options, "security_model"))
                          then TypeFailure else InvalidArgument)
    ensures r.Success? ==>
              var auth := Lookup(options, "use_auth").b;
              var priv := Lookup(options, "use_priv").b;
              && r.value.id == id
              && (Auth in r.value.flags <==> auth)
              && (Priv in r.value.flags <==> priv)
              && (Reportable in r.value.flags <==> request.kind != TrapV2Request)
              && r.value.securityModel == (if auth || priv then Some(3) else None)
  {
    var useAuth := Lookup(options, "use_auth");
    var usePriv := Lookup(options, "use_priv");
    if !useAuth.Bool? || !usePriv.Bool? then Failure(InvalidArgument)
    else
      var secured := useAuth.b || usePriv.b;
      var name := Lookup(options, "security_model");
      var model := SecurityModelId(name);
      if secured && IllegalOffset(name) then Failure(TypeFailure)
      else if secured && model.None? then Failure(InvalidArgument)
      else
        var flags := (if useAuth.b then {Auth} else {})
                   + (if usePriv.b then {Priv} else {})
                   + (if request.kind != TrapV2Request then {Reportable} else {});
        Success(MessageHeader(id, flags, if secured then model else None))
  }

  /** The options a caller would pass to ask for header `h`'s security level. */
  function HeaderOptions(h: MessageHeader): (o: Options)
    ensures Lookup(o, "use_auth") == Bool(Auth in h.flags)
    ensures Lookup(o, "use_priv") == Bool(Priv in h.flags)
  {
    map["use_auth" := Bool(Auth in h.flags), "use_priv" := Bool(Priv in h.flags), "security_model" := Str("usm")]
  }

  /**
   * A generated header is determined by its security level: asking again
   * with the flags it carries and the `usm` model gives the same header.
   */
  lemma HeaderRegenerates(request: Pdu, options: Options, id: int)
    requires GenerateMessageHeader(request, options, id).Success?
    ensures var h := GenerateMessageHeader(request, options, id).value;
            GenerateMessageHeader(request, HeaderOptions(h), id) == Success(h)
  {
  }

  /**
   * `getMessageRequest`: the envelope for `version` 1, 2 or 3 (compared
   * strictly, so only integers match); any other value is a runtime error.
   * The v3 header takes id `headerId`, and `engine_id` is used only when it
   * is an EngineId.
   */
  function GetMessageRequest(request: Pdu, options: Options, headerId: int): (r: Result<Request, Error>)
    ensures Lookup(options, "version") == Int(1) ==> r == Success(RequestV1(Lookup(options, "community"), request))
    ensures Lookup(options, "version") == Int(2) ==> r == Success(RequestV2(Lookup(options, "community"), request))
    ensures Lookup(options, "version") !in {Int(1), Int(2), Int(3)} ==> r == Failure(RuntimeFailure)
    ensures r.Success? ==> r.value.Payload() == Some(request)
    ensures r.Success? && r.value.RequestV3? ==>
              && Lookup(options, "version") == Int(3)
              && GenerateMessageHeader(request, options, headerId) == Success(r.value.header)
              && r.value.scopedPdu.Some?
              && r.value.scopedPdu.value.engineId ==
                   (if Lookup(options, "engine_id").EngineIdObject? then Some(EngineId(Lookup(options, "engine_id").id)) else None)
    ensures Lookup(options, "version") == Int(3) && GenerateMessageHeader(request, options, headerId).Failure? ==>
              r == Failure(GenerateMessageHeader(request, options, headerId).error)
    ensures Lookup(options, "version") == Int(3) && GenerateMessageHeader(request, options, headerId).Success? ==>
              match CastToString(Lookup(options, "context_name"))
              case None => r == Failure(TypeFailure)
              case Some(name) =>
                && r.Success? && r.value.RequestV3? && r.value.securityParameters.None?
                && r.value.scopedPdu.Some? && r.value.scopedPdu.value.contextName == name
  {
    var version := Lookup(options, "version");
    if version == Int(1) then Success(RequestV1(Lookup(options, "community"), request))
    else if version == Int(2) then Success(RequestV2(Lookup(options, "community"), request))
    else if version == Int(3) then
      var given := Lookup(options, "engine_id");
      var engineId := if given.EngineIdObject? then Some(EngineId(given.id)) else None;
      var header :- GenerateMessageHeader(request, options, headerId);
      match CastToString(Lookup(options, "context_name"))
      case None => Failure(TypeFailure)
      case Some(contextName) => Success(RequestV3(header, None, Some(ScopedPdu(engineId, contextName, request))))
    else Failure(RuntimeFailure)
  }

  /**
   * The envelope speaks the version that was asked for: its version tag
   * maps back to the `version` option, and versions 1 and 2 always build.
   */
  lemma EnvelopeMatchesVersionOption(request: Pdu, options: Options, headerId: int)
    ensures var r := GetMessageRequest(request, options, headerId);
            r.Success? ==> IsVersionTag(r.value.Version()) && Lookup(options, "version") == Int(VersionMap(r.value.Version()).value)
    ensures Lookup(options, "version") in {Int(1), Int(2)} ==> GetMessageRequest(request, options, headerId).Success?
  {
  }

  /** The outcome of a check: it passes or raises. */
  datatype Check = Pass | Fail(error: Error)

  /** The OIDs of a list of bindings, in order. */
  function OidNames(oids: seq<Oid>): (names: seq<string>)
    ensures |names| == |oids|
    ensures forall i :: 0 <= i < |oids| ==> names[i] == oids[i].oid
  {
    if |oids| == 0 then [] else [oids[0].oid] + OidNames(oids[1..])
  }

  /** The response's PDU class is acceptable for its version. */
  predicate KindAllowed(m: Response) {
    m.Version() in {0, 1, 3} && m.Payload().kind.Tag() in AllowedResponses(m.Version())
  }

  /** The response carries the expected id or the tolerated 0. */
  predicate IdAcceptable(m: Response, expectedId: int) {
    m.Payload().id == expectedId || m.Payload().id == 0
  }

  /**
   * `validateResponse`: nothing to check without a response; otherwise, in
   * this order, the PDU class must be allowed for the version, a Report
   * fails when `throwOnReport` (naming every OID it carries), the id must
   * be the expected one or 0, and the error status must be 0.
   */
  function ValidateResponse(message: Option<Response>, expectedId: int, throwOnReport: bool): (r: Check)
    ensures r.Pass? <==>
              || message.None?
              || (&& KindAllowed(message.value)
                  && !(throwOnReport && message.value.Payload().kind == ReportResponse)
                  && IdAcceptable(message.value, expectedId)
                  && message.value.Payload().errorStatus == 0)
    ensures r.Fail? ==> r.error.RequestFailure? && r.error.response == message
    ensures r.Fail? && r.error.reason == PduNotAllowed ==> !KindAllowed(message.value)
    ensures r.Fail? && r.error.reason.ReportReceived? ==>
              && KindAllowed(message.value) && throwOnReport && message.value.Payload().kind == ReportResponse
              && r.error.reason.oids == OidNames(message.value.Payload().oids)
    ensures r.Fail? && r.error.reason.UnexpectedId? ==>
              && KindAllowed(message.value) && !(throwOnReport && message.value.Payload().kind == ReportResponse)
              && !IdAcceptable(message.value, expectedId)
    ensures r.Fail? && r.error.reason == ErrorStatus ==>
              && KindAllowed(message.value) && !(throwOnReport && message.value.Payload().kind == ReportResponse)
              && IdAcceptable(message.value, expectedId) && message.value.Payload().errorStatus != 0
  {
    match message
    case None => Pass
    case Some(m) =>
      var p := m.Payload();
      if p.kind.Tag() !in AllowedResponses(m.Version()) then Fail(RequestFailure(message, PduNotAllowed))
      else if throwOnReport && p.kind == ReportResponse then Fail(RequestFailure(message, ReportReceived(OidNames(p.oids))))
      else if p.id != expectedId && p.id != 0 then Fail(RequestFailure(message, UnexpectedId(expectedId, p.id)))
      else if p.errorStatus != 0 then Fail(RequestFailure(message, ErrorStatus))
      else Pass
  }

  /**
   * For an allowed, error-free Response PDU the id check alone decides:
   * the expected id and 0 pass, every other id fails.
   */
  lemma ValidateChecksIdExactly(m: Response, expectedId: int, throwOnReport: bool)
    requires m.Payload().kind == Response && m.Payload().errorStatus == 0
    ensures ValidateResponse(Some(m), expectedId, throwOnReport).Pass? <==>
              (m.Payload().id == expectedId || m.Payload().id == 0)
  {
  }

  /** With `throwOnReport`, a Report always fails, whatever its id and error status. */
  lemma ReportAlwaysFailsWhenThrowing(m: Response, expectedId: int)
    requires m.Payload().kind == ReportResponse
    ensures ValidateResponse(Some(m), expectedId, true).Fail?
  {
  }

  /** Report-tolerant validation (discovery) accepts a well-formed SNMPv2c or SNMPv3 Report. */
  lemma DiscoveryToleratesReport(m: Response, expectedId: int)
    requires m.Payload().kind == ReportResponse && m.Version() != 0
    requires m.Payload().id == expectedId && m.Payload().errorStatus == 0
    ensures ValidateResponse(Some(m), expectedId, false) == Pass
  {
  }

  /** The reply to one datagram: the decoded response, or the transport's or decoder's failure. */
  datatype Exchange = Delivered(response: Response) | TransportFailed(error: Error)

  /** The collaborators of one call, by the order in which they are consulted. */
  datatype Environment = Environment(
    idAt: nat -> int,                      // the k-th id the generator hands out
    exchange: (nat, Request) -> Exchange   // the reply to the n-th datagram written
  )

  /** A security module as the factory returns it. */
  datatype SecurityModule = SecurityModule(
    isDiscoveryRequestNeeded: (bool, Request, Options) -> SecurityStep<bool>,
    getDiscoveryRequest: (bool, Request, Options) -> SecurityStep<Request>,
    handleDiscoveryResponse: (bool, Request, Response, Options) -> SecurityStep<()>,
    handleOutgoingMessage: (bool, Request, Options) -> SecurityStep<Request>,
    handleIncomingMessage: (bool, Response, Options) -> SecurityStep<Response>
  )

  /** `SecurityModelModuleFactory::get`: the module for a header's security model, or None when unknown. */
  type ModuleFactory = Option<int> -> Option<SecurityModule>

  /** What a call has done so far. */
  datatype Event =
    | Attempt(forced: bool)        // a v3 attempt starts
    | Discovery(probe: Request)    // a discovery exchange starts with this probe
    | Written(message: Request)    // a datagram is written

  /** The handler state and the positions reached in the id and reply sequences. */
  datatype Cursor = Cursor(state: ProtocolState, ids: nat, writes: nat, trace: seq<Event>)

  /** The socket can be had: one is held, or the handler's options name `udp`. */
  predicate SocketAvailable(st: ProtocolState, handlerOptions: Options) {
    st.socket.Some? || Lookup(handlerOptions, "transport") == Str("udp")
  }

  /** `after` continues `before` with datagram writes only. */
  predicate WritesOnly(before: seq<Event>, after: seq<Event>) {
    && |before| <= |after| && after[..|before|] == before
    && forall i :: |before| <= i < |after| ==> after[i].Written?
  }

  lemma WritesOnlyTransitive(a: seq<Event>, b: seq<Event>, c: seq<Event>)
    requires WritesOnly(a, b) && WritesOnly(b, c)
    ensures WritesOnly(a, c)
  {
    assert c[..|a|] == c[..|b|][..|a|];
  }

  datatype Sending = Sending(call: Call<Option<Response>>, cursor: Cursor)

  /**
   * What the `n`-th datagram of a call settles with once written: null at
   * once for a trap, otherwise the transport's reply or failure.
   */
  function ExchangeReply(env: Environment, n: nat, message: Request): Settled<Option<Response>> {
    if message.IsUnconfirmed() then Resolves(None)
    else match env.exchange(n, message)
         case Delivered(m) => Resolves(Some(m))
         case TransportFailed(e) => Rejects(e)
  }

  /**
   * `sendRequestGetResponse`: acquire the socket (a failure throws), write
   * the message, and settle with the reply; a trap settles with no
   * response at once.
   */
  function SendRequestGetResponse(c: Cursor, handlerOptions: Options, message: Request, env: Environment): (r: Sending)
    ensures r.call.Threw? <==> !SocketAvailable(c.state, handlerOptions)
    ensures r.call.Threw? ==> r.call.error == ConnectionFailure && r.cursor == c
    ensures WritesOnly(c.trace, r.cursor.trace)
    ensures r.call.Returned? ==>
              && r.cursor.trace == c.trace + [Written(message)]
              && r.cursor.writes == c.writes + 1 && r.cursor.ids == c.ids
              && r.cursor.state.socket.Some?
    ensures r.call.Returned? ==> r.call.outcome == ExchangeReply(env, c.writes, message)
  {
    match AcquireSocket(c.state, map[], handlerOptions)
    case SocketFailed(e) => Sending(Threw(e), c)
    case SocketReady(_, st) =>
      var c' := Cursor(st, c.ids, c.writes + 1, c.trace + [Written(message)]);
      if message.IsUnconfirmed() then Sending(Returned(Resolves(None)), c')
      else
        match env.exchange(c.writes, message)
        case Delivered(m) => Sending(Returned(Resolves(Some(m))), c')
        case TransportFailed(e) => Sending(Returned(Rejects(e)), c')
  }

  /** The `then` of `performDiscovery`: a v3 reply, report-tolerant validation, then the module's check. */
  function DiscoveryReply(p: Settled<Option<Response>>, id: int, message: Request, options: Options,
                          secModule: SecurityModule, forced: bool): (r: Settled<Response>)
    ensures r.Resolves? ==>
              && p == Resolves(Some(r.value)) && r.value.ResponseV3?
              && ValidateResponse(Some(r.value), id, false) == Pass
              && secModule.handleDiscoveryResponse(forced, message, r.value, options).Done?
  {
    match p
    case Rejects(e) => Rejects(e)
    case Resolves(None) => Rejects(ProtocolViolation)
    case Resolves(Some(m)) =>
      if !m.ResponseV3? then Rejects(ProtocolViolation)
      else
        match ValidateResponse(Some(m), id, false)
        case Fail(e) => Rejects(e)
        case Pass =>
          match secModule.handleDiscoveryResponse(forced, message, m, options)
          case Raised(e) => Rejects(e)
          case Done(_) => Resolves(m)
  }

  datatype Stepped<+T> = Stepped(call: Call<T>, cursor: Cursor)

  /**
   * `performDiscovery`: ask the module for its probe (a raise escapes
   * before any id is taken), stamp it with the next id and exchange it.
   */
  function PerformDiscovery(c: Cursor, handlerOptions: Options, message: Request, options: Options,
                            secModule: SecurityModule, env: Environment, forced: bool): (r: Stepped<Response>)
    ensures secModule.getDiscoveryRequest(forced, message, options).Raised? ==>
              r == Stepped(Threw(secModule.getDiscoveryRequest(forced, message, options).error), c)
    ensures secModule.getDiscoveryRequest(forced, message, options).Done? ==>
              var probe := StampRequest(secModule.getDiscoveryRequest(forced, message, options).value, env.idAt(c.ids));
              && WritesOnly(c.trace + [Discovery(probe)], r.cursor.trace)
              && r.cursor.ids == c.ids + 1
              && (r.call.Threw? <==> !SocketAvailable(c.state, handlerOptions))
              && (r.call.Returned? ==>
                    r.call.outcome == DiscoveryReply(ExchangeReply(env, c.writes, probe), env.idAt(c.ids), message, options, secModule, forced))
  {
    match secModule.getDiscoveryRequest(forced, message, options)
    case Raised(e) => Stepped(Threw(e), c)
    case Done(discovery) =>
      var probe := StampRequest(discovery, env.idAt(c.ids));
      var c1 := c.(ids := c.ids + 1, trace := c.trace + [Discovery(probe)]);
      var s := SendRequestGetResponse(c1, handlerOptions, probe, env);
      match s.call
      case Threw(e) => Stepped(Threw(e), s.cursor)
      case Returned(p) => Stepped(Returned(DiscoveryReply(p, env.idAt(c.ids), message, options, secModule, forced)), s.cursor)
  }

  /**
   * The `then` of the v3 send: the incoming transform (only of a v3
   * reply), a v3 result, and full validation against the request id.
   */
  function V3Reply(p: Settled<Option<Response>>, id: int, secModule: SecurityModule, options: Options, forced: bool): (r: Settled<Response>)
    ensures r.Resolves? ==> r.value.ResponseV3? && ValidateResponse(Some(r.value), id, true) == Pass
    ensures p.Rejects? ==> r == Rejects(p.error)
    ensures p == Resolves(None) ==> r == Rejects(ProtocolViolation)
    ensures p.Resolves? && p.value.Some? && p.value.value.ResponseV3? &&
            secModule.handleIncomingMessage(forced, p.value.value, options).Raised? ==>
              r == Rejects(secModule.handleIncomingMessage(forced, p.value.value, options).error)
  {
    match p
    case Rejects(e) => Rejects(e)
    case Resolves(None) => Rejects(ProtocolViolation)
    case Resolves(Some(m)) =>
      var incoming := if m.ResponseV3? then secModule.handleIncomingMessage(forced, m, options) else Done(m);
      match incoming
      case Raised(e) => Rejects(e)
      case Done(m') =>
        if !m'.ResponseV3? then Rejects(ProtocolViolation)
        else
          match ValidateResponse(Some(m'), id, true)
          case Fail(e) => Rejects(e)
          case Pass => Resolves(m')
  }

  /** The result of the `try` block of one attempt: it finished, or raised `error` synchronously. */
  datatype Attempted =
    | Finished(call: Call<Response>, cursor: Cursor)
    | Caught(error: Error, partial: Option<Response>, message: Request, cursor: Cursor)
  {
    function Trace(): seq<Event> {
      cursor.trace
    }
  }

  /** A resolved reply is a v3 response that passed full validation against `id`. */
  predicate ValidatedAgainst(outcome: Settled<Response>, id: int) {
    outcome.Resolves? ==> outcome.value.ResponseV3? && ValidateResponse(Some(outcome.value), id, true) == Pass
  }

  /** No attempt starts within the events. */
  predicate NoAttempts(events: seq<Event>) {
    forall i :: 0 <= i < |events| ==> !events[i].Attempt?
  }

  /**
   * The second half of the `try` block: stamp the next id, the outgoing
   * transform (which must keep a v3 request), then write and hand the
   * reply to the `then` callback.
   */
  function SendStamped(c: Cursor, partial: Option<Response>, handlerOptions: Options, message: Request,
                       options: Options, secModule: SecurityModule, env: Environment, forced: bool): (r: Attempted)
    requires message.RequestV3?
    ensures WritesOnly(c.trace, r.Trace())
    ensures r.Caught? ==> r.message.RequestV3?
    ensures r.Finished? ==>
              && r.call.Returned? && r.cursor.ids == c.ids + 1
              && ValidatedAgainst(r.call.outcome, env.idAt(c.ids))
    ensures r.Caught? && r.error == RediscoveryNeeded ==>
              secModule.handleOutgoingMessage(forced, StampRequest(message, env.idAt(c.ids)), options) == Raised(RediscoveryNeeded)
              && r.message == StampRequest(message, env.idAt(c.ids))
  {
    var id := env.idAt(c.ids);
    var stamped := StampRequest(message, id);
    var c1 := c.(ids := c.ids + 1);
    match secModule.handleOutgoingMessage(forced, stamped, options)
    case Raised(e) => Caught(e, partial, stamped, c1)
    case Done(out) =>
      if !out.RequestV3? then Caught(ProtocolViolation, partial, stamped, c1)
      else
        var s := SendRequestGetResponse(c1, handlerOptions, out, env);
        match s.call
        case Threw(e) => Caught(e, partial, out, s.cursor)
        case Returned(p) => Finished(Returned(V3Reply(p, id, secModule, options, forced)), s.cursor)
  }

  /**
   * `$forcedDiscovery || isDiscoveryRequestNeeded(...)`: the module is
   * asked only when discovery is not forced, and may raise.
   */
  function DiscoveryDecision(secModule: SecurityModule, message: Request, options: Options, forced: bool): SecurityStep<bool> {
    if forced then Done(true) else secModule.isDiscoveryRequestNeeded(forced, message, options)
  }

  /** A discovery exchange starts: it is forced or needed, and the module builds its probe. */
  predicate Discovers(secModule: SecurityModule, message: Request, options: Options, forced: bool) {
    DiscoveryDecision(secModule, message, options, forced) == Done(true)
    && secModule.getDiscoveryRequest(forced, message, options).Done?
  }

  /**
   * The `try` block of one attempt: discovery when forced or needed (its
   * rejection is rethrown by `await`; the module's raise while deciding or
   * building the probe is caught like any other), then the stamped send.
   */
  function TryAttempt(c: Cursor, handlerOptions: Options, message: Request, options: Options,
                      secModule: SecurityModule, env: Environment, forced: bool): (r: Attempted)
    requires message.RequestV3?
    ensures r.Caught? ==> r.message.RequestV3?
    ensures r.Caught? && r.error == RediscoveryNeeded ==> r.message.header == message.header
    ensures Discovers(secModule, message, options, forced) ==>
              exists probe :: WritesOnly(c.trace + [Attempt(forced), Discovery(probe)], r.Trace())
    ensures !Discovers(secModule, message, options, forced) ==>
              WritesOnly(c.trace + [Attempt(forced)], r.Trace())
    ensures FinishedValidated(r, c, env)
  {
    var c0 := c.(trace := c.trace + [Attempt(forced)]);
    match DiscoveryDecision(secModule, message, options, forced)
    case Raised(e) => Caught(e, None, message, c0)
    case Done(needed) =>
      if needed then DiscoverThenSend(c, handlerOptions, message, options, secModule, env, forced)
      else SendStamped(c0, None, handlerOptions, message, options, secModule, env, forced)
  }

  /** An attempt once discovery is decided on: the discovery exchange, then the stamped send. */
  function DiscoverThenSend(c: Cursor, handlerOptions: Options, message: Request, options: Options,
                            secModule: SecurityModule, env: Environment, forced: bool): (r: Attempted)
    requires message.RequestV3?
    ensures r.Caught? ==> r.message.RequestV3?
    ensures r.Caught? && r.error == RediscoveryNeeded ==> r.message.header == message.header
    ensures secModule.getDiscoveryRequest(forced, message, options).Raised? ==>
              r == Caught(secModule.getDiscoveryRequest(forced, message, options).error, None, message,
                          c.(trace := c.trace + [Attempt(forced)]))
    ensures secModule.getDiscoveryRequest(forced, message, options).Done? ==>
              exists probe :: WritesOnly(c.trace + [Attempt(forced), Discovery(probe)], r.Trace())
    ensures FinishedValidated(r, c, env)
  {
    var c0 := c.(trace := c.trace + [Attempt(forced)]);
    var d := PerformDiscovery(c0, handlerOptions, message, options, secModule, env, forced);
    match d.call
    case Threw(e) => Caught(e, None, message, d.cursor)
    case Returned(Rejects(e)) => Caught(e, None, message, d.cursor)
    case Returned(Resolves(m)) =>
      var probe := StampRequest(secModule.getDiscoveryRequest(forced, message, options).value, env.idAt(c0.ids));
      assert c0.trace + [Discovery(probe)] == c.trace + [Attempt(forced), Discovery(probe)];
      var r := SendStamped(d.cursor, Some(m), handlerOptions, message, options, secModule, env, forced);
      WritesOnlyTransitive(c0.trace + [Discovery(probe)], d.cursor.trace, r.Trace());
      r
  }

  /**
   * What the module raises while deciding on discovery or building its
   * probe is caught in the attempt, which then has written nothing.
   */
  lemma DiscoveryErrorsAreCaught(c: Cursor, handlerOptions: Options, message: Request, options: Options,
                                 secModule: SecurityModule, env: Environment, forced: bool)
    requires message.RequestV3?
    ensures var a := TryAttempt(c, handlerOptions, message, options, secModule, env, forced);
            var decision := DiscoveryDecision(secModule, message, options, forced);
            var probe := secModule.getDiscoveryRequest(forced, message, options);
            && (decision.Raised? ==> a == Caught(decision.error, None, message, c.(trace := c.trace + [Attempt(forced)])))
            && (decision == Done(true) && probe.Raised? ==>
                  a == Caught(probe.error, None, message, c.(trace := c.trace + [Attempt(forced)])))
  {
  }

  /**
   * A finished attempt has returned a promise, taken at least one id, and
   * resolves only with a reply validated against the last id it took.
   */
  predicate FinishedValidated(r: Attempted, c: Cursor, env: Environment) {
    r.Finished? ==>
      && r.call.Returned? && c.ids < r.cursor.ids
      && ValidatedAgainst(r.call.outcome, env.idAt(r.cursor.ids - 1))
  }

  /** An attempt never gives back ids it took. */
  lemma CursorIdsGrow(c: Cursor, handlerOptions: Options, message: Request, options: Options,
                      secModule: SecurityModule, env: Environment, forced: bool)
    requires message.RequestV3?
    ensures c.ids <= TryAttempt(c, handlerOptions, message, options, secModule, env, forced).cursor.ids
  {
  }

  /** The events of one attempt: its start, then a discovery exactly when one was run, then writes. */
  lemma AttemptShape(c: Cursor, r: Attempted, forced: bool, discovered: bool)
    requires discovered ==> exists probe :: WritesOnly(c.trace + [Attempt(forced), Discovery(probe)], r.Trace())
    requires !discovered ==> WritesOnly(c.trace + [Attempt(forced)], r.Trace())
    ensures |c.trace| < |r.Trace()| && r.Trace()[..|c.trace| + 1] == c.trace + [Attempt(forced)]
    ensures forall i :: |c.trace| < i < |r.Trace()| ==> !r.Trace()[i].Attempt?
    ensures (|c.trace| + 1 < |r.Trace()| && r.Trace()[|c.trace| + 1].Discovery?) <==> discovered
  {
    var t := r.Trace();
    if discovered {
      var probe :| WritesOnly(c.trace + [Attempt(forced), Discovery(probe)], t);
      var pre := c.trace + [Attempt(forced), Discovery(probe)];
      assert t[..|pre|] == pre;
      assert t[|c.trace|] == pre[|c.trace|] && t[|c.trace| + 1] == pre[|c.trace| + 1];
      assert t[..|c.trace| + 1] == t[..|pre|][..|c.trace| + 1];
    } else {
      var pre := c.trace + [Attempt(forced)];
      assert t[..|pre|] == pre;
      if |c.trace| + 1 < |t| {
        assert t[|c.trace| + 1].Written?;
      }
    }
  }

  /** The number of attempts among the events. */
  function CountAttempts(events: seq<Event>): nat {
    if |events| == 0 then 0
    else CountAttempts(events[..|events| - 1]) + (if events[|events| - 1].Attempt? then 1 else 0)
  }

  lemma {:induction false} CountAttemptsAppend(a: seq<Event>, b: seq<Event>)
    ensures CountAttempts(a + b) == CountAttempts(a) + CountAttempts(b)
    decreases |b|
  {
    if |b| > 0 {
      assert (a + b)[..|a + b| - 1] == a + b[..|b| - 1];
      CountAttemptsAppend(a, b[..|b| - 1]);
    } else {
      assert a + b == a;
    }
  }

  lemma {:induction false} CountAttemptsNone(events: seq<Event>)
    requires NoAttempts(events)
    ensures CountAttempts(events) == 0
  {
    if |events| > 0 {
      CountAttemptsNone(events[..|events| - 1]);
    }
  }

  /** An attempt adds exactly one Attempt event. */
  lemma OneAttemptEach(c: Cursor, r: Attempted, forced: bool)
    requires |c.trace| < |r.Trace()| && r.Trace()[..|c.trace| + 1] == c.trace + [Attempt(forced)]
    requires forall i :: |c.trace| < i < |r.Trace()| ==> !r.Trace()[i].Attempt?
    ensures CountAttempts(r.Trace()) == CountAttempts(c.trace) + 1
  {
    var t := r.Trace();
    var tail := t[|c.trace| + 1..];
    assert NoAttempts(tail) by {
      forall i | 0 <= i < |tail|
        ensures !tail[i].Attempt?
      {
        assert tail[i] == t[|c.trace| + 1 + i];
      }
    }
    assert t == c.trace + [Attempt(forced)] + t[|c.trace| + 1..];
    CountAttemptsAppend(c.trace + [Attempt(forced)], t[|c.trace| + 1..]);
    CountAttemptsAppend(c.trace, [Attempt(forced)]);
    assert CountAttempts([Attempt(forced)]) == 1 by {
      assert [Attempt(forced)][..0] == [];
    }
    CountAttemptsNone(t[|c.trace| + 1..]);
  }

  datatype V3Run = V3Run(call: Call<Response>, cursor: Cursor)

  /**
   * The `catch` clauses for everything but the retry: a rediscovery signal
   * or a security-model error becomes a request failure carrying the
   * discovery response, if any; anything else propagates.
   */
  function Conclude(a: Attempted): (r: V3Run)
    ensures r.cursor == a.cursor
    ensures a.Finished? ==> r.call == a.call
    ensures a.Caught? ==> r.call.Threw? && r.call.error != RediscoveryNeeded && r.call.error != SecurityModelFailure
    ensures a.Caught? && a.error in {RediscoveryNeeded, SecurityModelFailure} ==>
              r.call == Threw(RequestFailure(a.partial, SecurityFailure(a.error)))
  {
    match a
    case Finished(call, cursor) => V3Run(call, cursor)
    case Caught(e, partial, _, cursor) =>
      if e == RediscoveryNeeded || e == SecurityModelFailure then
        V3Run(Threw(RequestFailure(partial, SecurityFailure(e))), cursor)
      else V3Run(Threw(e), cursor)
  }

  /** What the trace of one attempt tells about the trace of the call. */
  lemma AttemptTrace(c: Cursor, a: Attempted, forced: bool, discovered: bool)
    requires discovered ==> exists probe :: WritesOnly(c.trace + [Attempt(forced), Discovery(probe)], a.Trace())
    requires !discovered ==> WritesOnly(c.trace + [Attempt(forced)], a.Trace())
    ensures |c.trace| < |a.Trace()| && a.Trace()[..|c.trace|] == c.trace && a.Trace()[|c.trace|] == Attempt(forced)
    ensures CountAttempts(a.Trace()) == CountAttempts(c.trace) + 1
  {
    AttemptShape(c, a, forced, discovered);
    OneAttemptEach(c, a, forced);
    assert a.Trace()[..|c.trace|] == a.Trace()[..|c.trace| + 1][..|c.trace|];
  }

  lemma PrefixOfPrefix(a: seq<Event>, b: seq<Event>, c: seq<Event>)
    requires |a| < |b| <= |c| && b[..|a|] == a && c[..|b|] == b
    ensures c[..|a|] == a && c[|a|] == b[|a|]
  {
    assert c[..|a|] == c[..|b|][..|a|];
  }

  /**
   * `sendV3Message`. The factory lookup happens outside the `try`. Of what
   * the `try` raises synchronously, RediscoveryNeeded on the first attempt
   * restarts once with discovery forced; on the forced attempt it, and any
   * security-model error, becomes a request failure carrying the discovery
   * response if there is one; anything else propagates. What the reply's
   * `then` callback raises is a rejection and is never retried.
   */
  function SendV3Message(c: Cursor, handlerOptions: Options, message: Request, options: Options,
                         factory: ModuleFactory, env: Environment, forced: bool): (r: V3Run)
    requires message.RequestV3?
    ensures |c.trace| <= |r.cursor.trace| && r.cursor.trace[..|c.trace|] == c.trace
    ensures r.call.Threw? ==> r.call.error != RediscoveryNeeded && r.call.error != SecurityModelFailure
    decreases if forced then 0 else 1
  {
    match factory(message.header.securityModel)
    case None => V3Run(Threw(UnknownSecurityModel), c)
    case Some(secModule) =>
      var a := TryAttempt(c, handlerOptions, message, options, secModule, env, forced);
      AttemptTrace(c, a, forced, Discovers(secModule, message, options, forced));
      if a.Caught? && a.error == RediscoveryNeeded && !forced then
        var again := SendV3Message(a.cursor, handlerOptions, a.message, options, factory, env, true);
        PrefixOfPrefix(c.trace, a.Trace(), again.cursor.trace);
        again
      else
        Conclude(a)
  }

  /**
   * An unknown security model fails before any attempt; otherwise the call
   * starts with an attempt and makes at most two of them, one when
   * discovery is already forced.
   */
  lemma {:induction false} SendV3MessageAttempts(c: Cursor, handlerOptions: Options, message: Request, options: Options,
                                                 factory: ModuleFactory, env: Environment, forced: bool)
    requires message.RequestV3?
    ensures var r := SendV3Message(c, handlerOptions, message, options, factory, env, forced);
            factory(message.header.securityModel).None? ==> r == V3Run(Threw(UnknownSecurityModel), c)
    ensures var r := SendV3Message(c, handlerOptions, message, options, factory, env, forced);
            factory(message.header.securityModel).Some? ==>
              && |c.trace| < |r.cursor.trace|
              && r.cursor.trace[|c.trace|] == Attempt(forced)
              && 1 <= CountAttempts(r.cursor.trace) - CountAttempts(c.trace) <= (if forced then 1 else 2)
    decreases if forced then 0 else 1
  {
    match factory(message.header.securityModel)
    case None =>
    case Some(secModule) =>
      var a := TryAttempt(c, handlerOptions, message, options, secModule, env, forced);
      AttemptTrace(c, a, forced, Discovers(secModule, message, options, forced));
      if a.Caught? && a.error == RediscoveryNeeded && !forced {
        SendV3MessageAttempts(a.cursor, handlerOptions, a.message, options, factory, env, true);
        var again := SendV3Message(a.cursor, handlerOptions, a.message, options, factory, env, true);
        PrefixOfPrefix(c.trace, a.Trace(), again.cursor.trace);
      }
  }

  /**
   * A promise returned by a call that started at `c` resolves only with a
   * v3 reply validated against the last id the call took.
   */
  predicate ReturnsValidated(r: V3Run, c: Cursor, env: Environment) {
    r.call.Returned? ==> c.ids < r.cursor.ids && ValidatedAgainst(r.call.outcome, env.idAt(r.cursor.ids - 1))
  }

  /**
   * A promise the call returns resolves only with a v3 reply that passed
   * full validation against the id stamped on the message last written,
   * the last id the call took.
   */
  lemma SendV3MessageValidates(c: Cursor, handlerOptions: Options, message: Request, options: Options,
                                factory: ModuleFactory, env: Environment, forced: bool)
    requires message.RequestV3?
    ensures ReturnsValidated(SendV3Message(c, handlerOptions, message, options, factory, env, forced), c, env)
  {
    if factory(message.header.securityModel).Some? {
      var a := TryAttempt(c, handlerOptions, message, options, factory(message.header.securityModel).value, env, forced);
      if a.Caught? && a.error == RediscoveryNeeded && !forced {
        RetryValidates(c, handlerOptions, message, options, factory, env);
      } else {
        FinalAttemptValidates(c, handlerOptions, message, options, factory, env, forced);
      }
    }
  }

  /** Without a restart the call returns what its one attempt returned. */
  lemma FinalAttemptValidates(c: Cursor, handlerOptions: Options, message: Request, options: Options,
                              factory: ModuleFactory, env: Environment, forced: bool)
    requires message.RequestV3? && factory(message.header.securityModel).Some?
    requires var a := TryAttempt(c, handlerOptions, message, options, factory(message.header.securityModel).value, env, forced);
             !(a.Caught? && a.error == RediscoveryNeeded && !forced)
    ensures ReturnsValidated(SendV3Message(c, handlerOptions, message, options, factory, env, forced), c, env)
  {
    var a := TryAttempt(c, handlerOptions, message, options, factory(message.header.securityModel).value, env, forced);
    assert SendV3Message(c, handlerOptions, message, options, factory, env, forced) == Conclude(a);
  }

  /** The restart after a rediscovery signal returns what its forced attempt returned. */
  lemma RetryValidates(c: Cursor, handlerOptions: Options, message: Request, options: Options,
                       factory: ModuleFactory, env: Environment)
    requires message.RequestV3? && factory(message.header.securityModel).Some?
    requires var a := TryAttempt(c, handlerOptions, message, options, factory(message.header.securityModel).value, env, false);
             a.Caught? && a.error == RediscoveryNeeded
    ensures ReturnsValidated(SendV3Message(c, handlerOptions, message, options, factory, env, false), c, env)
  {
    var secModule := factory(message.header.securityModel).value;
    var a := TryAttempt(c, handlerOptions, message, options, secModule, env, false);
    RediscoveryRetriesWithForcedDiscovery(c, handlerOptions, message, options, factory, env);
    FinalAttemptValidates(a.cursor, handlerOptions, a.message, options, factory, env, true);
    CursorIdsGrow(c, handlerOptions, message, options, secModule, env, false);
  }

  /**
   * Discovery runs in an attempt exactly when it is forced or the module
   * asks for it, and the module builds its probe.
   */
  lemma DiscoveryIffForcedOrNeeded(c: Cursor, handlerOptions: Options, message: Request, options: Options,
                                   secModule: SecurityModule, env: Environment, forced: bool)
    requires message.RequestV3?
    ensures var t := TryAttempt(c, handlerOptions, message, options, secModule, env, forced).Trace();
            (|c.trace| + 1 < |t| && t[|c.trace| + 1].Discovery?) <==>
              Discovers(secModule, message, options, forced)
  {
    var a := TryAttempt(c, handlerOptions, message, options, secModule, env, forced);
    AttemptShape(c, a, forced, Discovers(secModule, message, options, forced));
  }

  /**
   * A rediscovery signal raised synchronously in the first attempt restarts
   * the call once, on the message as it stood, with discovery forced.
   */
  lemma RediscoveryRetriesWithForcedDiscovery(c: Cursor, handlerOptions: Options, message: Request, options: Options,
                                              factory: ModuleFactory, env: Environment)
    requires message.RequestV3? && factory(message.header.securityModel).Some?
    requires var a := TryAttempt(c, handlerOptions, message, options, factory(message.header.securityModel).value, env, false);
             a.Caught? && a.error == RediscoveryNeeded
    ensures var secModule := factory(message.header.securityModel).value;
            var a := TryAttempt(c, handlerOptions, message, options, secModule, env, false);
            var r := SendV3Message(c, handlerOptions, message, options, factory, env, false);
            && r == SendV3Message(a.cursor, handlerOptions, a.message, options, factory, env, true)
            && |a.cursor.trace| < |r.cursor.trace|
            && r.cursor.trace[|a.cursor.trace|] == Attempt(true)
            && ((|a.cursor.trace| + 1 < |r.cursor.trace| && r.cursor.trace[|a.cursor.trace| + 1].Discovery?) <==>
                  secModule.getDiscoveryRequest(true, a.message, options).Done?)
  {
    var a := TryAttempt(c, handlerOptions, message, options, factory(message.header.securityModel).value, env, false);
    ForcedCallStartsWithDiscovery(a.cursor, handlerOptions, a.message, options, factory, env);
  }

  /**
   * A call with discovery forced starts with an attempt whose first step
   * is a discovery, unless the module raises while building the probe.
   */
  lemma ForcedCallStartsWithDiscovery(c: Cursor, handlerOptions: Options, message: Request, options: Options,
                                      factory: ModuleFactory, env: Environment)
    requires message.RequestV3? && factory(message.header.securityModel).Some?
    ensures var secModule := factory(message.header.securityModel).value;
            var r := SendV3Message(c, handlerOptions, message, options, factory, env, true);
            && |c.trace| < |r.cursor.trace|
            && r.cursor.trace[|c.trace|] == Attempt(true)
            && ((|c.trace| + 1 < |r.cursor.trace| && r.cursor.trace[|c.trace| + 1].Discovery?) <==>
                  secModule.getDiscoveryRequest(true, message, options).Done?)
  {
    var secModule := factory(message.header.securityModel).value;
    var b := TryAttempt(c, handlerOptions, message, options, secModule, env, true);
    AttemptShape(c, b, true, Discovers(secModule, message, options, true));
    assert SendV3Message(c, handlerOptions, message, options, factory, env, true) == Conclude(b);
    assert b.Trace()[|c.trace|] == b.Trace()[..|c.trace| + 1][|c.trace|];
  }

  /**
   * What `isDiscoveryRequestNeeded` raises on the first attempt is handled
   * by the `catch` clauses: a security-model error fails the call with no
   * discovery response, a rediscovery signal restarts it with discovery
   * forced.
   */
  lemma DiscoveryCheckErrors(c: Cursor, handlerOptions: Options, message: Request, options: Options,
                             factory: ModuleFactory, env: Environment)
    requires message.RequestV3? && factory(message.header.securityModel).Some?
    ensures var step := factory(message.header.securityModel).value.isDiscoveryRequestNeeded(false, message, options);
            var r := SendV3Message(c, handlerOptions, message, options, factory, env, false);
            && (step == Raised(SecurityModelFailure) ==>
                  r.call == Threw(RequestFailure(None, SecurityFailure(SecurityModelFailure))))
            && (step == Raised(RediscoveryNeeded) ==>
                  r == SendV3Message(c.(trace := c.trace + [Attempt(false)]), handlerOptions, message, options, factory, env, true))
  {
    var secModule := factory(message.header.securityModel).value;
    DiscoveryErrorsAreCaught(c, handlerOptions, message, options, secModule, env, false);
  }

  /**
   * On the forced attempt a rediscovery signal or a security-model error is
   * final: the call fails with a request failure carrying the discovery
   * response, and no further attempt is made.
   */
  lemma ForcedRediscoveryIsFatal(c: Cursor, handlerOptions: Options, message: Request, options: Options,
                                 factory: ModuleFactory, env: Environment)
    requires message.RequestV3? && factory(message.header.securityModel).Some?
    requires var a := TryAttempt(c, handlerOptions, message, options, factory(message.header.securityModel).value, env, true);
             a.Caught? && a.error in {RediscoveryNeeded, SecurityModelFailure}
    ensures var a := TryAttempt(c, handlerOptions, message, options, factory(message.header.securityModel).value, env, true);
            var r := SendV3Message(c, handlerOptions, message, options, factory, env, true);
            && r.call == Threw(RequestFailure(a.partial, SecurityFailure(a.error)))
            && CountAttempts(r.cursor.trace) == CountAttempts(c.trace) + 1
  {
    var secModule := factory(message.header.securityModel).value;
    var a := TryAttempt(c, handlerOptions, message, options, secModule, env, true);
    AttemptTrace(c, a, true, Discovers(secModule, message, options, true));
  }

  /**
   * What the reply's `then` callback raises, a rediscovery signal among
   * it, only rejects the returned promise: the call makes one attempt.
   */
  lemma ReplyRejectionIsNotRetried(c: Cursor, handlerOptions: Options, message: Request, options: Options,
                                   factory: ModuleFactory, env: Environment, forced: bool)
    requires message.RequestV3? && factory(message.header.securityModel).Some?
    requires TryAttempt(c, handlerOptions, message, options, factory(message.header.securityModel).value, env, forced).Finished?
    ensures var a := TryAttempt(c, handlerOptions, message, options, factory(message.header.securityModel).value, env, forced);
            var r := SendV3Message(c, handlerOptions, message, options, factory, env, forced);
            && r.call == a.call && r.call.Returned?
            && CountAttempts(r.cursor.trace) == CountAttempts(c.trace) + 1
  {
    var secModule := factory(message.header.securityModel).value;
    var a := TryAttempt(c, handlerOptions, message, options, secModule, env, forced);
    AttemptTrace(c, a, forced, Discovers(secModule, message, options, forced));
  }

  /** Whether `handle` lets the request's class through for the envelope's version. */
  predicate RequestAllowedFor(m: Request, request: Pdu) {
    IsVersionTag(m.Version()) && IsRequestAllowed(m.Version(), request.kind.Tag())
  }

  /** What `handle` does: it throws, or returns its deferred's promise. */
  datatype Handled = HandleThrew(error: Error) | HandleReturned(promise: Promise<Option<Response>>)

  datatype HandleRun = HandleRun(outcome: Handled, cursor: Cursor)

  /**
   * What the deferred of an allowed v1/v2c request holds once the reply to
   * the request stamped with `id` settles: the transport's rejection, the
   * reply when it passes full validation, and nothing otherwise.
   */
  predicate PlainOutcome(promise: Promise<Option<Response>>, reply: Settled<Option<Response>>, id: int) {
    && (reply.Rejects? ==> promise == Rejected(reply.error))
    && (reply.Resolves? ==>
          && (promise.Resolved? <==> ValidateResponse(reply.value, id, true) == Pass)
          && (promise.Resolved? ==> promise.value == reply.value)
          && (!promise.Resolved? ==> promise.Pending?))
  }

  /**
   * What the deferred of a v3 request holds once the v3 send has run: a
   * throw passes through; a disallowed request's deferred stays rejected;
   * an allowed one takes the send's resolution, and a rejection of the
   * send, having no handler, leaves it pending.
   */
  predicate V3Handled(outcome: Handled, call: Call<Response>, allowed: bool) {
    && (call.Threw? ==> outcome == HandleThrew(call.error))
    && (call.Returned? && !allowed ==> outcome == HandleReturned(Rejected(InvalidArgument)))
    && (call.Returned? && allowed && call.outcome.Resolves? ==> outcome == HandleReturned(Resolved(Some(call.outcome.value))))
    && (call.Returned? && allowed && call.outcome.Rejects? ==> outcome == HandleReturned(Pending))
  }

  /**
   * `handle`, as written: a disallowed request rejects the deferred but is
   * still stamped and sent; a v3 rejection has no handler, and a failed
   * validation of a v1/v2c reply throws inside the `then` callback, so in
   * both cases the deferred stays as it was.
   */
  function Handle(st: ProtocolState, handlerOptions: Options, request: Pdu, callOptions: Options,
                  factory: ModuleFactory, env: Environment): (r: HandleRun)
    ensures GetMessageRequest(request, ArrayMerge(handlerOptions, callOptions), env.idAt(0)).Failure? ==>
              r.outcome == HandleThrew(GetMessageRequest(request, ArrayMerge(handlerOptions, callOptions), env.idAt(0)).error)
              && r.cursor.trace == []
    ensures var m := GetMessageRequest(request, ArrayMerge(handlerOptions, callOptions), env.idAt(0));
            m.Success? && !m.value.RequestV3? ==>
              && (!SocketAvailable(st, handlerOptions) ==> r.outcome == HandleThrew(ConnectionFailure) && r.cursor.trace == [])
              && (SocketAvailable(st, handlerOptions) ==>
                    r.outcome.HandleReturned? && r.cursor.trace == [Written(StampRequest(m.value, env.idAt(0)))])
    ensures var m := GetMessageRequest(request, ArrayMerge(handlerOptions, callOptions), env.idAt(0));
            m.Success? && !m.value.RequestV3? && RequestAllowedFor(m.value, request) && SocketAvailable(st, handlerOptions) ==>
              PlainOutcome(r.outcome.promise, ExchangeReply(env, 0, StampRequest(m.value, env.idAt(0))), env.idAt(0))
    ensures var m := GetMessageRequest(request, ArrayMerge(handlerOptions, callOptions), env.idAt(0));
            m.Success? && m.value.RequestV3? ==>
              var run := SendV3Message(Cursor(st, 1, 0, []), handlerOptions, m.value, ArrayMerge(handlerOptions, callOptions), factory, env, false);
              && r.cursor == run.cursor
              && (r.outcome.HandleReturned? && r.outcome.promise.Resolved? ==>
                    r.outcome.promise.value.Some? && run.call == Returned(Resolves(r.outcome.promise.value.value)))
              && V3Handled(r.outcome, run.call, RequestAllowedFor(m.value, request))
  {
    var options := ArrayMerge(handlerOptions, callOptions);
    var c := Cursor(st, 1, 0, []);
    match GetMessageRequest(request, options, env.idAt(0))
    case Failure(e) => HandleRun(HandleThrew(e), c)
    case Success(message) =>
      var deferred: Promise<Option<Response>> := if RequestAllowedFor(message, request) then Pending else Rejected(InvalidArgument);
      if message.RequestV3? then
        var run := SendV3Message(c, handlerOptions, message, options, factory, env, false);
        match run.call
        case Threw(e) => HandleRun(HandleThrew(e), run.cursor)
        case Returned(Resolves(m)) => HandleRun(HandleReturned(Settle(deferred, Resolved(Some(m)))), run.cursor)
        case Returned(Rejects(_)) => HandleRun(HandleReturned(deferred), run.cursor)
      else
        var id := env.idAt(0);
        var s := SendRequestGetResponse(c, handlerOptions, StampRequest(message, id), env);
        match s.call
        case Threw(e) => HandleRun(HandleThrew(e), s.cursor)
        case Returned(Rejects(e)) => HandleRun(HandleReturned(Settle(deferred, Rejected(e))), s.cursor)
        case Returned(Resolves(m)) =>
          match ValidateResponse(m, id, true)
          case Pass => HandleRun(HandleReturned(Settle(deferred, Resolved(m))), s.cursor)
          case Fail(_) => HandleRun(HandleReturned(deferred), s.cursor)
  }

  /**
   * `handle` as evidently intended: a disallowed request is rejected
   * before any I/O, and every failure of the exchange rejects the deferred.
   */
  function HandleCorrected(st: ProtocolState, handlerOptions: Options, request: Pdu, callOptions: Options,
                           factory: ModuleFactory, env: Environment): (r: HandleRun)
    ensures r.outcome.HandleReturned? ==> !r.outcome.promise.Pending?
  {
    var options := ArrayMerge(handlerOptions, callOptions);
    var c := Cursor(st, 1, 0, []);
    match GetMessageRequest(request, options, env.idAt(0))
    case Failure(e) => HandleRun(HandleThrew(e), c)
    case Success(message) =>
      if !RequestAllowedFor(message, request) then HandleRun(HandleReturned(Rejected(InvalidArgument)), c)
      else if message.RequestV3? then
        var run := SendV3Message(c, handlerOptions, message, options, factory, env, false);
        match run.call
        case Threw(e) => HandleRun(HandleThrew(e), run.cursor)
        case Returned(Resolves(m)) => HandleRun(HandleReturned(Resolved(Some(m))), run.cursor)
        case Returned(Rejects(e)) => HandleRun(HandleReturned(Rejected(e)), run.cursor)
      else
        var id := env.idAt(0);
        var s := SendRequestGetResponse(c, handlerOptions, StampRequest(message, id), env);
        match s.call
        case Threw(e) => HandleRun(HandleThrew(e), s.cursor)
        case Returned(Rejects(e)) => HandleRun(HandleReturned(Rejected(e)), s.cursor)
        case Returned(Resolves(m)) =>
          match ValidateResponse(m, id, true)
          case Pass => HandleRun(HandleReturned(Resolved(m)), s.cursor)
          case Fail(e) => HandleRun(HandleReturned(Rejected(e)), s.cursor)
  }

  /**
   * A resolved promise holds a v3 reply validated against the last id the
   * call took, which is not the header's.
   */
  predicate ResolvesValidated(r: HandleRun, env: Environment) {
    r.outcome.HandleReturned? && r.outcome.promise.Resolved? ==>
      && 1 < r.cursor.ids && r.outcome.promise.value.Some?
      && r.outcome.promise.value.value.ResponseV3?
      && ValidateResponse(r.outcome.promise.value, env.idAt(r.cursor.ids - 1), true) == Pass
  }

  /**
   * The promise of a v3 request resolves only with a v3 reply that passed
   * full validation against the id stamped on the request last written.
   */
  lemma HandleResolvesOnlyValidatedV3(st: ProtocolState, handlerOptions: Options, request: Pdu, callOptions: Options,
                                      factory: ModuleFactory, env: Environment)
    requires var m := GetMessageRequest(request, ArrayMerge(handlerOptions, callOptions), env.idAt(0));
             m.Success? && m.value.RequestV3?
    ensures ResolvesValidated(Handle(st, handlerOptions, request, callOptions, factory, env), env)
  {
    var options := ArrayMerge(handlerOptions, callOptions);
    var m := GetMessageRequest(request, options, env.idAt(0)).value;
    var run := SendV3Message(Cursor(st, 1, 0, []), handlerOptions, m, options, factory, env, false);
    var r := Handle(st, handlerOptions, request, callOptions, factory, env);
    assert r.cursor == run.cursor;
    SendV3MessageValidates(Cursor(st, 1, 0, []), handlerOptions, m, options, factory, env, false);
    if r.outcome.HandleReturned? && r.outcome.promise.Resolved? {
      assert run.call == Returned(Resolves(r.outcome.promise.value.value));
    }
  }

  /**
   * As written, a v1/v2c request the version does not allow rejects the
   * deferred, and is still stamped and written to the agent.
   */
  lemma DisallowedRequestIsStillSent(st: ProtocolState, handlerOptions: Options, request: Pdu, callOptions: Options,
                                     factory: ModuleFactory, env: Environment)
    requires var m := GetMessageRequest(request, ArrayMerge(handlerOptions, callOptions), env.idAt(0));
             m.Success? && !m.value.RequestV3? && !RequestAllowedFor(m.value, request)
    requires SocketAvailable(st, handlerOptions)
    ensures var m := GetMessageRequest(request, ArrayMerge(handlerOptions, callOptions), env.idAt(0)).value;
            var r := Handle(st, handlerOptions, request, callOptions, factory, env);
            && r.outcome == HandleReturned(Rejected(InvalidArgument))
            && r.cursor.trace == [Written(StampRequest(m, env.idAt(0)))]
  {
  }

  /**
   * As written, a v1/v2c reply that fails validation throws inside the
   * `then` callback, which nothing observes: the returned promise never settles.
   */
  lemma FailedValidationLeavesPromisePending(st: ProtocolState, handlerOptions: Options, request: Pdu, callOptions: Options,
                                             factory: ModuleFactory, env: Environment, reply: Response)
    requires var m := GetMessageRequest(request, ArrayMerge(handlerOptions, callOptions), env.idAt(0));
             && m.Success? && !m.value.RequestV3? && RequestAllowedFor(m.value, request) && !m.value.IsUnconfirmed()
             && env.exchange(0, StampRequest(m.value, env.idAt(0))) == Delivered(reply)
    requires SocketAvailable(st, handlerOptions)
    requires ValidateResponse(Some(reply), env.idAt(0), true).Fail?
    ensures Handle(st, handlerOptions, request, callOptions, factory, env).outcome == HandleReturned(Pending)
  {
  }

  /**
   * As written, the v3 branch attaches only a fulfilment callback to the send:
   * an allowed request whose send rejects leaves the returned promise unsettled.
   */
  lemma V3RejectionLeavesPromisePending(st: ProtocolState, handlerOptions: Options, request: Pdu, callOptions: Options,
                                        factory: ModuleFactory, env: Environment)
    requires var options := ArrayMerge(handlerOptions, callOptions);
             var m := GetMessageRequest(request, options, env.idAt(0));
             && m.Success? && m.value.RequestV3? && RequestAllowedFor(m.value, request)
             && SendV3Message(Cursor(st, 1, 0, []), handlerOptions, m.value, options, factory, env, false).call.Returned?
             && SendV3Message(Cursor(st, 1, 0, []), handlerOptions, m.value, options, factory, env, false).call.outcome.Rejects?
    ensures Handle(st, handlerOptions, request, callOptions, factory, env).outcome == HandleReturned(Pending)
    ensures HandleCorrected(st, handlerOptions, request, callOptions, factory, env).outcome
            == HandleReturned(Rejected(SendV3Message(Cursor(st, 1, 0, []), handlerOptions,
                                                     GetMessageRequest(request, ArrayMerge(handlerOptions, callOptions), env.idAt(0)).value,
                                                     ArrayMerge(handlerOptions, callOptions), factory, env, false).call.outcome.error))
  {
  }

  /** The corrected `handle` answers a disallowed request without any I/O. */
  lemma CorrectedHandleRefusesBeforeSending(st: ProtocolState, handlerOptions: Options, request: Pdu, callOptions: Options,
                                            factory: ModuleFactory, env: Environment)
    requires var m := GetMessageRequest(request, ArrayMerge(handlerOptions, callOptions), env.idAt(0));
             m.Success? && !RequestAllowedFor(m.value, request)
    ensures var r := HandleCorrected(st, handlerOptions, request, callOptions, factory, env);
            r.outcome == HandleReturned(Rejected(InvalidArgument)) && r.cursor.trace == [] && r.cursor.state == st
  {
  }

  /**
   * Where the written `handle` settles its promise or throws, the corrected
   * one does the same, with the same I/O.
   */
  lemma CorrectedHandleAgreesWhenSettled(st: ProtocolState, handlerOptions: Options, request: Pdu, callOptions: Options,
                                         factory: ModuleFactory, env: Environment)
    requires var m := GetMessageRequest(request, ArrayMerge(handlerOptions, callOptions), env.idAt(0));
             m.Failure? || RequestAllowedFor(m.value, request)
    requires var r := Handle(st, handlerOptions, request, callOptions, factory, env);
             r.outcome.HandleThrew? || !r.outcome.promise.Pending?
    ensures HandleCorrected(st, handlerOptions, request, callOptions, factory, env) ==
            Handle(st, handlerOptions, request, callOptions, factory, env)
  {
  }

  /** `close`: release the held socket, if any; closing again releases nothing. */
  function Close(st: ProtocolState): (r: (Option<Socket>, ProtocolState))
    ensures r.0 == st.socket
    ensures r.1 == st.(socket := None)
  {
    if st.socket.Some? then (st.socket, st.(socket := None)) else (None, st)
  }

  lemma CloseIsIdempotent(st: ProtocolState)
    ensures Close(Close(st).1) == (None, Close(st).1)
  {
  }
}

=== FILE: messages.dfy ===
/**
 * Message envelopes (RFC 3412 section 6), the errors the handlers raise,
 * and the shapes of synchronous and asynchronous outcomes.
 */
module Messages {
  import opened Outcomes
  import opened PhpValues
  import opened Pdus

  /** The msgFlags bits of section 6.4 of RFC 3412. */
  datatype Flag = Auth | Priv | Reportable

  /**
   * The v3 message header. `securityModel` is None while the header keeps
   * the default its constructor gives it.
   */
  datatype MessageHeader = MessageHeader(id: int, flags: set<Flag>, securityModel: Option<int>)

  /** An opaque SNMP engine identifier. */
  datatype EngineId = EngineId(bytes: string)

  /** Security parameters of a v3 message: the USM variant, or any other model's. */
  datatype SecurityParameters =
    | UsmParameters(engineId: Option<EngineId>, engineBoots: int, engineTime: int, username: string)
    | OtherParameters(securityModel: int)

  datatype ScopedPdu = ScopedPdu(engineId: Option<EngineId>, contextName: string, pdu: Pdu)

  /**
   * A request envelope. A v3 request may lack its scoped PDU (for
   * instance while it is still encrypted).
   */
  datatype Request =
    | RequestV1(community: Value, pdu: Pdu)
    | RequestV2(community: Value, pdu: Pdu)
    | RequestV3(header: MessageHeader, securityParameters: Option<SecurityParameters>, scopedPdu: Option<ScopedPdu>)
  {
    /** msgVersion: 0 for v1, 1 for v2c, 3 for v3. */
    function Version(): int {
      match this
      case RequestV1(_, _) => 0
      case RequestV2(_, _) => 1
      case RequestV3(_, _, _) => 3
    }

    /** `getRequest()`: the PDU the envelope carries, if any. */
    function Payload(): Option<Pdu> {
      match this
      case RequestV1(_, p) => Some(p)
      case RequestV2(_, p) => Some(p)
      case RequestV3(_, _, s) => if s.Some? then Some(s.value.pdu) else None
    }

    /** The same envelope around another PDU. */
    function WithPdu(p: Pdu): Request {
      match this
      case RequestV1(c, _) => RequestV1(c, p)
      case RequestV2(c, _) => RequestV2(c, p)
      case RequestV3(h, sp, s) => if s.Some? then RequestV3(h, sp, Some(s.value.(pdu := p))) else this
    }

    /** The envelope carries a trap, to which no response is expected. */
    predicate IsUnconfirmed() {
      Payload().Some? && Payload().value.kind.IsUnconfirmed()
    }
  }

  /** A response envelope as the decoder builds it. */
  datatype Response =
    | ResponseV1(community: Value, pdu: Pdu)
    | ResponseV2(community: Value, pdu: Pdu)
    | ResponseV3(header: MessageHeader, securityParameters: Option<SecurityParameters>, scopedPdu: ScopedPdu)
  {
    function Version(): int {
      match this
      case ResponseV1(_, _) => 0
      case ResponseV2(_, _) => 1
      case ResponseV3(_, _, _) => 3
    }

    /** `getResponse()`. */
    function Payload(): Pdu {
      match this
      case ResponseV1(_, p) => p
      case ResponseV2(_, p) => p
      case ResponseV3(_, _, s) => s.pdu
    }
  }

  /** Why a request failed (the cases of SnmpRequestException). */
  datatype FailureReason =
    | PduNotAllowed
    | ReportReceived(oids: seq<string>)
    | UnexpectedId(expected: int, received: int)
    | ErrorStatus
    | SecurityFailure(cause: Error)

  /** Why the trap receiver refused a datagram (its RuntimeException cases). */
  datatype Refusal =
    | AddressNotAllowed
    | VersionNotAllowed
    | V3TrapUnusable
    | Undecodable
    | TrapNotAllowed

  /** The exceptions of the handlers. */
  datatype Error =
    | InvalidArgument
    | RuntimeFailure
    | TypeFailure
    | ConnectionFailure
    | ProtocolViolation
    | SecurityModelFailure
    | RediscoveryNeeded
    | UnknownSecurityModel
    | RequestFailure(response: Option<Response>, reason: FailureReason)
    | Refused(refusal: Refusal)

  /** A settled promise: fulfilled with a value or rejected with an error. */
  datatype Settled<+T> = Resolves(value: T) | Rejects(error: Error)

  /** A call that either throws synchronously or returns a promise that settles. */
  datatype Call<+T> = Threw(error: Error) | Returned(outcome: Settled<T>)

  /** A deferred as its consumer sees it: it may never settle. */
  datatype Promise<+T> = Pending | Resolved(value: T) | Rejected(error: Error)

  /** A deferred settles once: later resolutions and rejections are ignored. */
  function Settle<T>(d: Promise<T>, s: Promise<T>): Promise<T> {
    if d.Pending? then s else d
  }

  /** A security-module operation either returns or raises. */
  datatype SecurityStep<+T> = Done(value: T) | Raised(error: Error)
}

=== FILE: outcomes.dfy ===
/**
 * Failure-carrying wrappers shared by every module of the model.
 */
module Outcomes {

  /** A value that may be absent (PHP `null`). */
  datatype Option<+T> = None | Some(value: T)

  /** A value or the error that prevented computing it. */
  datatype Result<+T, +E> = Success(value: T) | Failure(error: E) {

    predicate IsFailure() {
      Failure?
    }

    function PropagateFailure<U>(): Result<U, E>
      requires Failure?
    {
      Failure(error)
    }

    function Extract(): T
      requires Success?
    {
      value
    }
  }
}

=== FILE: pdus.dfy ===
/**
 * Protocol data units: the operation kinds with the context tags of
 * section 3 of RFC 3416, object identifiers and the PDU record.
 */
module Pdus {

  /** The PDU classes of the client and trap receiver. */
  datatype PduKind =
    | GetRequest
    | GetNextRequest
    | Response
    | SetRequest
    | TrapV1Request
    | GetBulkRequest
    | InformRequest
    | TrapV2Request
    | ReportResponse
    | Unclassified(tag: int)   // a PDU class that is neither a request nor a response
  {
    /** The context tag the class reports through `getPduTag()`. */
    function Tag(): int {
      match this
      case GetRequest => 0
      case GetNextRequest => 1
      case Response => 2
      case SetRequest => 3
      case TrapV1Request => 4
      case GetBulkRequest => 5
      case InformRequest => 6
      case TrapV2Request => 7
      case ReportResponse => 8
      case Unclassified(t) => t
    }

    /** The class implements the request interface. */
    predicate IsRequest() {
      this in {GetRequest, GetNextRequest, SetRequest, TrapV1Request, GetBulkRequest, InformRequest, TrapV2Request}
    }

    /** The class implements the response interface. */
    predicate IsResponse() {
      this == Response || this == ReportResponse
    }

    /** A notification that is never answered. */
    predicate IsUnconfirmed() {
      this == TrapV1Request || this == TrapV2Request
    }
  }

  /** The standard PDU class a context tag denotes; other tags are unclassified. */
  function KindOfTag(t: int): (k: PduKind)
    ensures k.Tag() == t
    ensures 0 <= t <= 8 <==> !k.Unclassified?
  {
    match t
    case 0 => GetRequest
    case 1 => GetNextRequest
    case 2 => Response
    case 3 => SetRequest
    case 4 => TrapV1Request
    case 5 => GetBulkRequest
    case 6 => InformRequest
    case 7 => TrapV2Request
    case 8 => ReportResponse
    case _ => Unclassified(t)
  }

  /** Tag and kind are inverse for every standard class. */
  lemma KindOfTagInverts(k: PduKind)
    requires !k.Unclassified?
    ensures KindOfTag(k.Tag()) == k
  {
  }

  /** An object identifier in dotted text, with whether its value is endOfMibView. */
  datatype Oid = Oid(oid: string, endOfMibView: bool)

  /** A PDU: its class, request id, error status and index, and the variable bindings. */
  datatype Pdu = Pdu(kind: PduKind, id: int, errorStatus: int, errorIndex: int, oids: seq<Oid>)
}

=== FILE: php_values.dfy ===
/**
 * The dynamically typed values held in the option arrays the protocol
 * handlers receive, and the PHP conversions the handlers apply to them.
 */
module PhpValues {
  import opened Outcomes

  /** A PHP value as it can appear in an option array. */
  datatype Value =
    | Null
    | Bool(b: bool)
    | Int(i: int)
    | Str(s: string)
    | EngineIdObject(id: string)   // an instance of the EngineId message class
    | List(items: seq<Value>)      // a list-shaped array

  /** An option array with string keys. */
  type Options = map<string, Value>

  /** `$options[$key] ?? null`: a missing key reads as null. */
  function Lookup(o: Options, key: string): Value {
    if key in o then o[key] else Null
  }

  /** `array_merge($base, $over)`: for string keys the later array wins. */
  function ArrayMerge(base: Options, over: Options): (r: Options)
    ensures r.Keys == base.Keys + over.Keys
    ensures forall k :: k in over ==> r[k] == over[k]
    ensures forall k :: k in base && k !in over ==> r[k] == base[k]
  {
    base + over
  }

  /** `$left + $right` (array union): a key already in `left` keeps its value. */
  function ArrayUnion(left: Options, right: Options): (r: Options)
    ensures r.Keys == left.Keys + right.Keys
    ensures forall k :: k in left ==> r[k] == left[k]
    ensures forall k :: k in right && k !in left ==> r[k] == right[k]
  {
    right + left
  }

  predicate IsDigit(c: char) {
    '0' <= c <= '9'
  }

  predicate AllDigits(s: string) {
    forall i :: 0 <= i < |s| ==> IsDigit(s[i])
  }

  /** The whitespace PHP skips before a leading-numeric string. */
  predicate IsNumericSpace(c: char) {
    c == ' ' || c == '\t' || c == '\n' || c == '\r' || c == '\U{0B}' || c == '\U{0C}'
  }

  function DigitChar(d: nat): char
    requires d < 10
  {
    ('0' as int + d) as char
  }

  /** The decimal text of a natural number, without leading zeros. */
  function DecimalString(n: nat): (s: string)
    ensures 0 < |s| && AllDigits(s)
  {
    if n < 10 then [DigitChar(n)] else DecimalString(n / 10) + [DigitChar(n % 10)]
  }

  /** The number a string of decimal digits denotes. */
  function DigitsValue(s: string): nat
    requires AllDigits(s)
  {
    if |s| == 0 then 0 else DigitsValue(s[..|s| - 1]) * 10 + (s[|s| - 1] as int - '0' as int)
  }

  /** The longest prefix of `s` made of decimal digits. */
  function LeadingDigits(s: string): (d: string)
    ensures d <= s && AllDigits(d)
    ensures |d| < |s| ==> !IsDigit(s[|d|])
  {
    if 0 < |s| && IsDigit(s[0]) then [s[0]] + LeadingDigits(s[1..]) else []
  }

  function SkipNumericSpace(s: string): (t: string)
    ensures |t| <= |s| && t == s[|s| - |t|..]
  {
    if 0 < |s| && IsNumericSpace(s[0]) then SkipNumericSpace(s[1..]) else s
  }

  function Pow10(e: nat): (p: nat)
    ensures 1 <= p
  {
    if e == 0 then 1 else 10 * Pow10(e - 1)
  }

  /**
   * `mantissa` times ten to the `exponent`, truncated toward zero: one
   * decimal shift at a time.
   */
  function Scaled(mantissa: nat, exponent: int): nat
    decreases if exponent < 0 then -exponent else exponent
  {
    if exponent == 0 then mantissa
    else if exponent > 0 then Scaled(mantissa * 10, exponent - 1)
    else Scaled(mantissa / 10, exponent + 1)
  }

  /**
   * The exponent part at the head of `s`: `e` or `E`, an optional sign and
   * at least one digit; anything else contributes no exponent.
   */
  function ExponentOf(s: string): int {
    if |s| < 2 || (s[0] != 'e' && s[0] != 'E') then 0
    else if s[1] == '+' || s[1] == '-' then
      var digits := LeadingDigits(s[2..]);
      if |digits| == 0 then 0 else if s[1] == '-' then 0 - DigitsValue(digits) else DigitsValue(digits)
    else
      var digits := LeadingDigits(s[1..]);
      if |digits| == 0 then 0 else DigitsValue(digits)
  }

  /** The digits after a decimal point at the head of `rest`, if any. */
  function FractionDigits(rest: string): (f: string)
    ensures AllDigits(f)
  {
    if 0 < |rest| && rest[0] == '.' then LeadingDigits(rest[1..]) else []
  }

  /** What follows the fraction (or the integer digits, without a point). */
  function AfterFraction(rest: string): string {
    if 0 < |rest| && rest[0] == '.' then rest[1 + |FractionDigits(rest)|..] else rest
  }

  /**
   * The magnitude of the unsigned numeric prefix of `t`: digits, an
   * optional point with more digits, an optional exponent, as C's `strtod`
   * reads them, truncated to an integer.
   */
  function NumericMagnitude(t: string): nat {
    var intDigits := LeadingDigits(t);
    MantissaMagnitude(intDigits, t[|intDigits|..])
  }

  /**
   * The magnitude of integer digits `intDigits` followed by `rest`. Without
   * a digit before the exponent there is no number and the result is 0.
   */
  function MantissaMagnitude(intDigits: string, rest: string): nat
    requires AllDigits(intDigits)
  {
    var fracDigits := FractionDigits(rest);
    if |intDigits| == 0 && |fracDigits| == 0 then 0
    else
      assert AllDigits(intDigits + fracDigits);
      Scaled(DigitsValue(intDigits + fracDigits), ExponentOf(AfterFraction(rest)) - |fracDigits|)
  }

  /**
   * `(int)$s`: leading whitespace, an optional sign, then the longest
   * numeric prefix (with fraction and exponent, which PHP reads as a float
   * and truncates toward zero); a string with no such prefix reads as 0.
   */
  function IntOfString(s: string): int {
    var t := SkipNumericSpace(s);
    if 0 < |t| && t[0] == '-' then 0 - NumericMagnitude(t[1..])
    else if 0 < |t| && t[0] == '+' then NumericMagnitude(t[1..])
    else NumericMagnitude(t)
  }

  /** The decimal text PHP produces for an integer. */
  function IntegerString(i: int): string {
    if i < 0 then "-" + DecimalString(-i) else DecimalString(i)
  }

  /**
   * `(string)$v`. An EngineId object has no string form in this model and
   * yields None (PHP raises an Error for an object it cannot convert).
   */
  function CastToString(v: Value): Option<string> {
    match v
    case Null => Some("")
    case Bool(b) => Some(if b then "1" else "")
    case Int(i) => Some(IntegerString(i))
    case Str(s) => Some(s)
    case List(_) => Some("Array")
    case EngineIdObject(_) => None
  }

  lemma {:induction false} DigitsValueOfDecimal(n: nat)
    ensures DigitsValue(DecimalString(n)) == n
  {
    if n >= 10 {
      var s := DecimalString(n);
      assert s[..|s| - 1] == DecimalString(n / 10);
      DigitsValueOfDecimal(n / 10);
    }
  }

  lemma {:induction false} LeadingDigitsOfDigits(s: string)
    requires AllDigits(s)
    ensures LeadingDigits(s) == s
  {
    if 0 < |s| {
      LeadingDigitsOfDigits(s[1..]);
    }
  }

  /** Reading back the decimal text of an integer with `(int)` yields the integer. */
  lemma {:induction false} IntegerStringRoundTrip(i: int)
    ensures IntOfString(IntegerString(i)) == i
  {
    if i < 0 {
      var d := DecimalString(-i);
      var s := "-" + d;
      assert s[0] == '-' && !IsNumericSpace(s[0]);
      assert SkipNumericSpace(s) == s;
      assert s[1..] == d;
      DigitsValueOfDecimal(-i);
      MagnitudeOfDigits(d);
      assert IntOfString(s) == 0 - NumericMagnitude(d);
    } else {
      var d := DecimalString(i);
      assert IsDigit(d[0]) && !IsNumericSpace(d[0]);
      assert SkipNumericSpace(d) == d;
      DigitsValueOfDecimal(i);
      MagnitudeOfDigits(d);
      assert IntOfString(d) == NumericMagnitude(d);
    }
  }

  /** A string of digits alone reads as the number it denotes. */
  lemma MagnitudeOfDigits(d: string)
    requires 0 < |d| && AllDigits(d)
    ensures NumericMagnitude(d) == DigitsValue(d)
  {
    LeadingDigitsOfDigits(d);
    assert d[|d|..] == [];
    MantissaWithoutFraction(d, []);
  }

  /** Digits followed by a non-digit: the digits are the whole leading run. */
  lemma {:induction false} LeadingDigitsStop(d: string, rest: string)
    requires AllDigits(d) && 0 < |rest| && !IsDigit(rest[0])
    ensures LeadingDigits(d + rest) == d
  {
    if |d| > 0 {
      assert (d + rest)[1..] == d[1..] + rest;
      LeadingDigitsStop(d[1..], rest);
    }
  }

  /** Digits, `e`, digits: the mantissa scaled by ten to the exponent. */
  lemma MagnitudeWithExponent(d: string, x: string)
    requires 0 < |d| && AllDigits(d) && 0 < |x| && AllDigits(x)
    ensures NumericMagnitude(d + "e" + x) == DigitsValue(d) * Pow10(DigitsValue(x))
  {
    var t := d + "e" + x;
    var rest := "e" + x;
    assert t == d + rest;
    LeadingDigitsStop(d, rest);
    assert t[|d|..] == rest;
    MantissaWithoutFraction(d, rest);
    ExponentOfDigits(x);
    ScaledUp(DigitsValue(d), DigitsValue(x));
  }

  /** A non-negative exponent multiplies by the power of ten. */
  lemma {:induction false} ScaledUp(m: nat, e: nat)
    ensures Scaled(m, e) == m * Pow10(e)
    decreases e
  {
    if e > 0 {
      ScaledUp(m * 10, e - 1);
      assert m * 10 * Pow10(e - 1) == m * (10 * Pow10(e - 1));
    }
  }

  /** Integer digits not followed by a point: no fraction digits to scale by. */
  lemma MantissaWithoutFraction(d: string, rest: string)
    requires 0 < |d| && AllDigits(d) && (|rest| == 0 || rest[0] != '.')
    ensures MantissaMagnitude(d, rest) == Scaled(DigitsValue(d), ExponentOf(rest))
  {
    var none: string := [];
    assert FractionDigits(rest) == none && AfterFraction(rest) == rest;
    assert d + none == d;
    assert MantissaMagnitude(d, rest) == Scaled(DigitsValue(d + none), ExponentOf(rest) - |none|);
  }

  /** `e` and digits is an exponent of their value. */
  lemma ExponentOfDigits(x: string)
    requires 0 < |x| && AllDigits(x)
    ensures ExponentOf("e" + x) == DigitsValue(x)
  {
    assert ("e" + x)[1..] == x;
    LeadingDigitsOfDigits(x);
  }

  /** The cast reads an exponent: `1e3` is 1000. */
  lemma ExponentIsRead()
    ensures IntOfString("1e3") == 1000
  {
    assert "1e3" == "1" + "e" + "3";
    assert SkipNumericSpace("1e3") == "1e3";
    MagnitudeWithExponent("1", "3");
    assert DigitsValue("1") == 1 && DigitsValue("3") == 3;
    assert Pow10(3) == 1000;
  }

  /** The cast reads a fraction and truncates it toward zero: `-7.9` is -7. */
  lemma FractionIsTruncated()
    ensures IntOfString("-7.9") == -7
  {
    var t := "7.9";
    assert SkipNumericSpace("-7.9") == "-7.9";
    assert "-7.9"[1..] == t;
    assert LeadingDigits(t[2..]) == "9";
    assert LeadingDigits(t) == "7";
    assert t[1..] == ".9";
    assert ".9"[1..] == "9";
    assert ".9"[2..] == [];
    assert "7" + "9" == "79";
    assert DigitsValue("79") == 79;
    assert NumericMagnitude(t) == Scaled(79, -1);
  }

}

=== FILE: protocol_trait.dfy ===
/**
 * The rule tables and helpers both protocol handlers share: which PDU
 * classes each msgVersion allows as requests and responses, the public
 * version number, stamping of the request id, and the lazily created
 * socket and encoder.
 */
module ProtocolTrait {
  import opened Outcomes
  import opened PhpValues
  import opened Pdus
  import opened Messages

  /** The internal version tags the tables are keyed by (msgVersion of RFC 3412 section 6.1). */
  predicate IsVersionTag(v: int) {
    v == 0 || v == 1 || v == 3
  }

  /** `$allowedResponses`: tags acceptable in a response, per version tag. */
  function AllowedResponses(v: int): set<int>
    requires IsVersionTag(v)
  {
    if v == 0 then {2} else {2, 8}
  }

  /** `$allowedRequests`: tags a request may carry, per version tag. */
  function AllowedRequests(v: int): set<int>
    requires IsVersionTag(v)
  {
    if v == 0 then {0, 1, 3, 4} else {0, 1, 3, 5, 6, 7}
  }

  /** `$versionMap`: the public version number of a version tag. */
  function VersionMap(v: int): (r: Option<int>)
    ensures r.Some? <==> IsVersionTag(v)
    ensures r.Some? ==> r.value == (if v == 3 then 3 else v + 1)
  {
    if v == 0 then Some(1) else if v == 1 then Some(2) else if v == 3 then Some(3) else None
  }

  /**
   * The operations each protocol defines for a command generator or
   * notification originator to send: SNMPv1 (RFC 1157) has Get, GetNext,
   * Set and its own Trap; SNMPv2c and SNMPv3 (RFC 3416) replace that Trap
   * with SNMPv2-Trap and add GetBulk and Inform.
   */
  predicate ProtocolRequest(v: int, k: PduKind) {
    match k
    case GetRequest => true
    case GetNextRequest => true
    case SetRequest => true
    case TrapV1Request => v == 0
    case GetBulkRequest => v != 0
    case InformRequest => v != 0
    case TrapV2Request => v != 0
    case _ => false
  }

  /** The replies each protocol defines: Response always, Report from SNMPv2c on. */
  predicate ProtocolResponse(v: int, k: PduKind) {
    k == Response || (k == ReportResponse && v != 0)
  }

  /** The request table agrees, tag by tag, with the operations each protocol defines. */
  lemma RequestTableMatchesProtocols(v: int, t: int)
    requires IsVersionTag(v)
    ensures t in AllowedRequests(v) <==> ProtocolRequest(v, KindOfTag(t))
  {
  }

  /** The response table agrees, tag by tag, with the replies each protocol defines. */
  lemma ResponseTableMatchesProtocols(v: int, t: int)
    requires IsVersionTag(v)
    ensures t in AllowedResponses(v) <==> ProtocolResponse(v, KindOfTag(t))
  {
  }

  /** `isRequestAllowed`. */
  function IsRequestAllowed(v: int, t: int): (r: bool)
    requires IsVersionTag(v)
    ensures r <==> ProtocolRequest(v, KindOfTag(t))
    ensures r ==> KindOfTag(t).IsRequest()
  {
    t in AllowedRequests(v)
  }

  /**
   * The table facts a reader might not expect: Set is allowed in SNMPv1;
   * GetBulk, Inform and SNMPv2-Trap never in SNMPv1; the SNMPv1 Trap
   * never in SNMPv2c or SNMPv3; Report is accepted as a response only
   * from SNMPv2c on.
   */
  lemma VersionSpecificKinds(v: int)
    requires IsVersionTag(v)
    ensures IsRequestAllowed(v, SetRequest.Tag())
    ensures v == 0 ==> !IsRequestAllowed(v, GetBulkRequest.Tag()) && !IsRequestAllowed(v, InformRequest.Tag())
                       && !IsRequestAllowed(v, TrapV2Request.Tag())
    ensures v != 0 ==> !IsRequestAllowed(v, TrapV1Request.Tag())
    ensures ReportResponse.Tag() in AllowedResponses(v) <==> v != 0
    ensures forall t :: t in AllowedResponses(v) ==> !IsRequestAllowed(v, t)
  {
  }

  /** Whether `setPduId` writes the id of a PDU of this class. */
  predicate TraitStampsId(k: PduKind) {
    (k.IsRequest() || k.IsResponse()) && k != TrapV1Request
  }

  /**
   * `setPduId`: sets the id of a request or response PDU other than an
   * SNMPv1 Trap (which has no request id) and changes nothing else.
   */
  function SetPduId(p: Pdu, id: int): (r: Pdu)
    ensures r.kind == p.kind && r.errorStatus == p.errorStatus && r.errorIndex == p.errorIndex && r.oids == p.oids
    ensures TraitStampsId(p.kind) ==> r.id == id
    ensures !TraitStampsId(p.kind) ==> r == p
  {
    if !(p.kind.IsRequest() || p.kind.IsResponse()) then p
    else if p.kind == TrapV1Request then p
    else p.(id := id)
  }

  /** Stamping twice is stamping once with the later id. */
  lemma SetPduIdLastWins(p: Pdu, a: int, b: int)
    ensures SetPduId(SetPduId(p, a), b) == SetPduId(p, b)
  {
  }

  /** A datagram socket, remembered with the host and port it was opened for. */
  datatype Socket = UdpSocket(host: Value, port: Value)

  /** An encoder instance; `serial` tells instances apart. */
  datatype Encoder = SnmpEncoder(serial: nat)

  /** The lazily filled fields a handler holds. */
  datatype ProtocolState = ProtocolState(socket: Option<Socket>, encoder: Option<Encoder>)

  datatype SocketResult = SocketReady(socket: Socket, state: ProtocolState) | SocketFailed(error: Error)

  /**
   * `socket($callOptions)`: the held socket if there is one; otherwise the
   * call options over the handler's, which must name the `udp` transport,
   * open a new socket that the handler then holds.
   */
  function AcquireSocket(st: ProtocolState, callOptions: Options, handlerOptions: Options): (r: SocketResult)
    ensures st.socket.Some? ==> r == SocketReady(st.socket.value, st)
    ensures st.socket.None? ==>
              (r.SocketFailed? <==> Lookup(ArrayUnion(callOptions, handlerOptions), "transport") != Str("udp"))
    ensures r.SocketFailed? ==> r.error == ConnectionFailure
    ensures r.SocketReady? ==> r.state == st.(socket := Some(r.socket))
    ensures st.socket.None? && r.SocketReady? ==>
              r.socket == UdpSocket(Lookup(ArrayUnion(callOptions, handlerOptions), "host"),
                                    Lookup(ArrayUnion(callOptions, handlerOptions), "port"))
  {
    if st.socket.Some? then SocketReady(st.socket.value, st)
    else
      var o := ArrayUnion(callOptions, handlerOptions);
      if Lookup(o, "transport") != Str("udp") then SocketFailed(ConnectionFailure)
      else
        var s := UdpSocket(Lookup(o, "host"), Lookup(o, "port"));
        SocketReady(s, st.(socket := Some(s)))
  }

  /** Once a socket is held, every later call returns it, whatever options it is given. */
  lemma SocketIsReused(st: ProtocolState, c1: Options, h1: Options, c2: Options, h2: Options)
    requires AcquireSocket(st, c1, h1).SocketReady?
    ensures var r := AcquireSocket(st, c1, h1);
            AcquireSocket(r.state, c2, h2) == SocketReady(r.socket, r.state)
  {
  }

  /** `encoder()`: the held encoder, or `made`, which the handler then holds. */
  function AcquireEncoder(st: ProtocolState, made: Encoder): (r: (Encoder, ProtocolState))
    ensures r.1 == st.(encoder := Some(r.0))
    ensures st.encoder.Some? ==> r.0 == st.encoder.value && r.1 == st
  {
    if st.encoder.Some? then (st.encoder.value, st) else (made, st.(encoder := Some(made)))
  }

  /** Once created, the same encoder is returned on every later call. */
  lemma EncoderIsCreatedOnce(st: ProtocolState, made1: Encoder, made2: Encoder)
    ensures var (e, st') := AcquireEncoder(st, made1);
            AcquireEncoder(st', made2) == (e, st')
  {
  }
}

=== FILE: snmp_walk.dfy ===
/**
 * An SNMP walk: repeated GetBulk or GetNext requests (section 4.2.3 of
 * RFC 3416), each anchored at the last OID of the previous batch, with
 * every returned OID counted and passed to a callback until the walk
 * leaves its range or the callback cancels it.
 */
module SnmpWalk {
  import opened Outcomes
  import opened Pdus
  import opened Messages
  import opened ProtocolTrait

  /** The walk's settings and its running count of OIDs seen. */
  datatype Walk = Walk(
    startAt: string,
    endAt: Option<string>,
    subtreeOnly: bool,
    useGetBulk: Option<bool>,   // null until set: use GetBulk where the version has it
    maxRepetitions: int,
    count: nat)

  const DefaultStart: string := "1.3.6.1.2.1"
  const DefaultMaxRepetitions: int := 100

  /** The constructor: a missing start OID is the mib-2 subtree. */
  function NewWalk(startAt: Option<string>, endAt: Option<string>, subtreeOnly: bool): (w: Walk)
    ensures startAt.Some? ==> w.startAt == startAt.value
    ensures w.endAt == endAt && w.subtreeOnly == subtreeOnly
    ensures w.count == 0
  {
    Walk(if startAt.Some? then startAt.value else DefaultStart, endAt, subtreeOnly, None, DefaultMaxRepetitions, 0)
  }

  /** Without arguments a walk covers mib-2 only, with GetBulk where possible, 100 repetitions at a time. */
  lemma DefaultWalk()
    ensures NewWalk(None, None, true) == Walk("1.3.6.1.2.1", None, true, None, 100, 0)
  {
  }

  /**
   * `isEndOfSubtree`: the OID's text does not start with the start OID's
   * text (a character prefix, not an arc prefix).
   */
  function IsEndOfSubtree(w: Walk, oid: Oid): (r: bool)
    ensures r <==> !(w.startAt <= oid.oid)
  {
    var n := |w.startAt|;
    (if |oid.oid| <= n then oid.oid else oid.oid[..n]) != w.startAt
  }

  /** `isComplete`: endOfMibView, the end OID itself, or leaving the subtree when confined to it. */
  function IsComplete(w: Walk, oid: Oid): (r: bool)
    ensures r <==> oid.endOfMibView || w.endAt == Some(oid.oid) || (w.subtreeOnly && !(w.startAt <= oid.oid))
  {
    if oid.endOfMibView then true
    else if w.endAt.Some? && oid.oid == w.endAt.value then true
    else if w.subtreeOnly then IsEndOfSubtree(w, oid)
    else false
  }

  /** The subtree of an OID by arcs: the OID itself or anything below one of its arcs. */
  predicate InArcSubtree(root: string, oid: string) {
    oid == root || root + "." <= oid
  }

  /** Every OID of the subtree by arcs counts as inside it. */
  lemma ArcSubtreeIsNotEnd(w: Walk, oid: Oid)
    requires InArcSubtree(w.startAt, oid.oid)
    ensures !IsEndOfSubtree(w, oid)
  {
    if oid.oid != w.startAt {
      assert w.startAt + "." <= oid.oid;
      assert (w.startAt + ".")[..|w.startAt|] == w.startAt;
      assert oid.oid[..|w.startAt|] == w.startAt;
    }
  }

  /**
   * As written, the character prefix also admits a sibling whose last arc
   * extends the start's: from 1.3.6.1.2.1 the walk runs on into 1.3.6.1.2.10.
   */
  lemma SiblingArcCountsAsInside()
    ensures var w := NewWalk(None, None, true);
            !IsEndOfSubtree(w, Oid("1.3.6.1.2.10", false)) && !InArcSubtree(w.startAt, "1.3.6.1.2.10")
  {
    var w := NewWalk(None, None, true);
    assert "1.3.6.1.2.10"[..|w.startAt|] == w.startAt;
    assert "1.3.6.1.2.10"[11] == '0';
  }

  /** The end-of-subtree test by arcs, as evidently intended. */
  function IsOutsideArcSubtree(w: Walk, oid: Oid): (r: bool)
    ensures r <==> !InArcSubtree(w.startAt, oid.oid)
  {
    var n := |w.startAt|;
    !(oid.oid == w.startAt || (n < |oid.oid| && oid.oid[..n] == w.startAt && oid.oid[n] == '.'))
  }

  /** The arc test agrees with the written one on arc subtrees and stops at the sibling. */
  lemma ArcTestRefinesCharacterTest(w: Walk, oid: Oid)
    ensures !IsOutsideArcSubtree(w, oid) ==> !IsEndOfSubtree(w, oid)
    ensures IsEndOfSubtree(w, oid) ==> IsOutsideArcSubtree(w, oid)
    ensures var d := NewWalk(None, None, true); IsOutsideArcSubtree(d, Oid("1.3.6.1.2.10", false))
  {
    if !IsOutsideArcSubtree(w, oid) {
      ArcSubtreeIsNotEnd(w, oid);
    }
    SiblingArcCountsAsInside();
  }

  /** The request `getNextOid` issues. */
  datatype WalkRequest =
    | GetBulkOf(maxRepetitions: int, nonRepeaters: int, oid: string)
    | GetNextOf(oid: string)
  {
    function Anchor(): string {
      match this
      case GetBulkOf(_, _, o) => o
      case GetNextOf(o) => o
    }
  }

  /** Whether the walk uses GetBulk for a client of this SNMP version. */
  predicate UsesGetBulk(w: Walk, clientVersion: int) {
    (w.useGetBulk.None? || w.useGetBulk.value) && clientVersion >= 2
  }

  /**
   * `getNextOid`: anchored at the reference OID, or at the start without
   * one; GetBulk (no non-repeaters) unless disabled or the client speaks v1.
   */
  function NextRequest(w: Walk, reference: Option<Oid>, clientVersion: int): (r: WalkRequest)
    ensures r.GetBulkOf? <==> w.useGetBulk != Some(false) && clientVersion >= 2
    ensures r.GetBulkOf? ==> r.maxRepetitions == w.maxRepetitions && r.nonRepeaters == 0
    ensures r.Anchor() == (if reference.Some? then reference.value.oid else w.startAt)
  {
    var anchor := if reference.Some? then reference.value.oid else w.startAt;
    if UsesGetBulk(w, clientVersion) then GetBulkOf(w.maxRepetitions, 0, anchor) else GetNextOf(anchor)
  }

  /** The internal msgVersion tag of a client's public version 1, 2 or 3. */
  function TagOfVersion(v: int): int
    requires 1 <= v <= 3
  {
    if v == 3 then 3 else v - 1
  }

  /** A walk only asks for GetBulk where the client's protocol version allows that request. */
  lemma GetBulkOnlyWhereAllowed(w: Walk, reference: Option<Oid>, clientVersion: int)
    requires 1 <= clientVersion <= 3
    ensures NextRequest(w, reference, clientVersion).GetBulkOf? ==>
              IsRequestAllowed(TagOfVersion(clientVersion), GetBulkRequest.Tag())
    ensures !IsRequestAllowed(TagOfVersion(clientVersion), GetBulkRequest.Tag()) ==>
              NextRequest(w, reference, clientVersion).GetNextOf?
  {
  }

  /** The callback: it sees each OID and the walk's count so far, and returns false to cancel. */
  type Callback = (Oid, nat) -> bool

  /** The loop leaves the batch at this OID, which is the `n`-th the walk has counted. */
  predicate Stops(w: Walk, oid: Oid, callback: Callback, n: nat) {
    IsComplete(w, oid) || !callback(oid, n)
  }

  /**
   * The body of `walk`'s `then` for a non-empty batch: each OID is counted
   * first; a complete OID cancels without reaching the callback, and a
   * false result of the callback cancels too. `handled` is the number of
   * OIDs counted, `delivered` the OIDs the callback saw.
   */
  method ProcessBatch(w: Walk, oids: seq<Oid>, callback: Callback) returns (w': Walk, handled: nat, cancelled: bool, delivered: seq<Oid>)
    ensures w' == w.(count := w.count + handled)
    ensures handled <= |oids|
    ensures !cancelled ==> handled == |oids|
    ensures cancelled ==> 0 < handled && Stops(w, oids[handled - 1], callback, w.count + handled)
    ensures forall j :: 0 <= j < handled && (j < handled - 1 || !cancelled) ==> !Stops(w, oids[j], callback, w.count + j + 1)
    ensures delivered == if cancelled && IsComplete(w, oids[handled - 1]) then oids[..handled - 1] else oids[..handled]
  {
    w' := w;
    handled := 0;
    cancelled := false;
    delivered := [];
    while handled < |oids| && !cancelled
      invariant handled <= |oids|
      invariant w' == w.(count := w.count + handled)
      invariant cancelled ==> 0 < handled && Stops(w, oids[handled - 1], callback, w.count + handled)
      invariant forall j :: 0 <= j < handled && (j < handled - 1 || !cancelled) ==> !Stops(w, oids[j], callback, w.count + j + 1)
      invariant delivered == if cancelled && IsComplete(w, oids[handled - 1]) then oids[..handled - 1] else oids[..handled]
    {
      var oid := oids[handled];
      w' := w'.(count := w'.count + 1);
      handled := handled + 1;
      if IsComplete(w, oid) {
        cancelled := true;
      } else {
        delivered := delivered + [oid];
        cancelled := !callback(oid, w'.count);
      }
    }
  }

  /** What the agent answers to the n-th request of a walk. */
  datatype Batch = Oids(oids: seq<Oid>) | RequestFailed(error: Error)

  /** Why a modelled walk stopped. */
  datatype WalkEnd =
    | Cancelled            // a complete OID, or the callback returned false
    | EndOfWalk            // an empty batch: EndOfWalkException
    | WalkFailed(error: Error)
    | AwaitingReply        // the supplied answers ran out; the walk would go on

  /** The number of OIDs in the batches. */
  function OidsIn(answers: seq<Batch>): nat {
    if answers == [] then 0
    else OidsIn(answers[..|answers| - 1]) + (if answers[|answers| - 1].Oids? then |answers[|answers| - 1].oids| else 0)
  }

  /**
   * No OID of the batch stops the loop, when the walk has counted `before`
   * OIDs ahead of it.
   */
  predicate RunsThrough(w: Walk, callback: Callback, before: nat, oids: seq<Oid>) {
    forall j :: 0 <= j < |oids| ==> !Stops(w, oids[j], callback, before + j + 1)
  }

  /**
   * The `i`-th OID of the batch is the first to stop the loop, when the
   * walk has counted `before` OIDs ahead of it.
   */
  predicate FirstStop(w: Walk, callback: Callback, before: nat, oids: seq<Oid>, i: nat) {
    && i < |oids|
    && Stops(w, oids[i], callback, before + i + 1)
    && RunsThrough(w, callback, before, oids[..i])
  }

  /** A cancelled batch leaves the count `after`: every OID up to and including the first stopping one is counted. */
  predicate CountedToFirstStop(w: Walk, callback: Callback, before: nat, oids: seq<Oid>, after: nat) {
    before < after && FirstStop(w, callback, before, oids, after - before - 1)
  }

  /** A batch has at most one first stopping OID, so the count it leaves is determined. */
  lemma FirstStopUnique(w: Walk, callback: Callback, before: nat, oids: seq<Oid>, i: nat, i': nat)
    requires FirstStop(w, callback, before, oids, i) && FirstStop(w, callback, before, oids, i')
    ensures i == i'
  {
  }

  /** The request after a non-empty batch is anchored at its last OID. */
  predicate Continues(w: Walk, clientVersion: int, answer: Batch, request: WalkRequest) {
    && answer.Oids? && answer.oids != []
    && request == NextRequest(w, Some(answer.oids[|answer.oids| - 1]), clientVersion)
  }

  /** Whether an OID stops the loop does not depend on the walk's count. */
  lemma SameStops(w: Walk, w': Walk, oid: Oid, callback: Callback, n: nat)
    requires w' == w.(count := w'.count)
    ensures Stops(w', oid, callback, n) == Stops(w, oid, callback, n)
  {
  }

  lemma OidsInPrefix(answers: seq<Batch>, k: nat)
    requires k < |answers|
    ensures OidsIn(answers[..k + 1]) == OidsIn(answers[..k]) + (if answers[k].Oids? then |answers[k].oids| else 0)
  {
    assert answers[..k + 1][..k] == answers[..k];
  }

  /**
   * One non-empty batch of `walk`, on a walk `current` that differs from
   * `w` only in its count: it runs through, counting every OID, or stops
   * after counting at least one.
   */
  method TakeBatch(w: Walk, current: Walk, oids: seq<Oid>, callback: Callback) returns (next: Walk, cancelled: bool)
    requires current == w.(count := current.count)
    ensures next == w.(count := next.count)
    ensures !cancelled ==> next.count == current.count + |oids| && RunsThrough(w, callback, current.count, oids)
    ensures cancelled ==>
              && current.count < next.count <= current.count + |oids|
              && !RunsThrough(w, callback, current.count, oids)
              && CountedToFirstStop(w, callback, current.count, oids, next.count)
  {
    var handled, delivered;
    next, handled, cancelled, delivered := ProcessBatch(current, oids, callback);
    forall j | 0 <= j < |oids|
      ensures Stops(current, oids[j], callback, current.count + j + 1) == Stops(w, oids[j], callback, current.count + j + 1)
    {
      SameStops(w, current, oids[j], callback, current.count + j + 1);
    }
    if cancelled {
      assert Stops(w, oids[handled - 1], callback, current.count + (handled - 1) + 1);
    }
  }

  /**
   * The requests of a walk: the first at the reference (or the start),
   * each later one at the last OID of the batch before it, all in one mode.
   */
  predicate Requested(w: Walk, reference: Option<Oid>, clientVersion: int, answers: seq<Batch>, requests: seq<WalkRequest>) {
    && 0 < |requests| <= |answers| + 1
    && requests[0] == NextRequest(w, reference, clientVersion)
    && (forall k :: 0 < k < |requests| ==> Continues(w, clientVersion, answers[k - 1], requests[k]))
    && (forall k :: 0 <= k < |requests| ==> (requests[k].GetBulkOf? <==> UsesGetBulk(w, clientVersion)))
  }

  /** The first `n` answers are batches that no OID stopped. */
  predicate PassedBatches(w: Walk, callback: Callback, answers: seq<Batch>, n: nat) {
    && n <= |answers|
    && forall k :: 0 <= k < n ==>
         answers[k].Oids? && RunsThrough(w, callback, w.count + OidsIn(answers[..k]), answers[k].oids)
  }

  lemma RequestedExtend(w: Walk, reference: Option<Oid>, clientVersion: int, answers: seq<Batch>,
                        requests: seq<WalkRequest>, oids: seq<Oid>)
    requires Requested(w, reference, clientVersion, answers, requests) && |requests| <= |answers|
    requires answers[|requests| - 1] == Oids(oids) && oids != []
    ensures Requested(w, reference, clientVersion, answers,
                      requests + [NextRequest(w, Some(oids[|oids| - 1]), clientVersion)])
  {
    var next := NextRequest(w, Some(oids[|oids| - 1]), clientVersion);
    assert Continues(w, clientVersion, answers[|requests| - 1], next);
  }

  lemma PassedBatchesExtend(w: Walk, callback: Callback, answers: seq<Batch>, n: nat)
    requires PassedBatches(w, callback, answers, n) && n < |answers| && answers[n].Oids?
    requires RunsThrough(w, callback, w.count + OidsIn(answers[..n]), answers[n].oids)
    ensures PassedBatches(w, callback, answers, n + 1)
  {
  }

  /**
   * The walk was cancelled inside the non-empty answer `n`: some OID of it
   * stopped the loop, and the walk counted the OIDs of the earlier answers
   * and those of answer `n` up to and including the first stopping one.
   */
  predicate CancelledIn(w: Walk, callback: Callback, answers: seq<Batch>, n: nat, count: nat) {
    && n < |answers| && answers[n].Oids? && answers[n].oids != []
    && !RunsThrough(w, callback, w.count + OidsIn(answers[..n]), answers[n].oids)
    && w.count + OidsIn(answers[..n]) < count <= w.count + OidsIn(answers[..n + 1])
    && CountedToFirstStop(w, callback, w.count + OidsIn(answers[..n]), answers[n].oids, count)
  }

  /**
   * `walk`: request a batch, process it, and if it was neither empty nor
   * cancelled walk again from its last OID. `answers[k]` is the agent's
   * answer to the k-th request.
   */
  method WalkFrom(w: Walk, reference: Option<Oid>, clientVersion: int, answers: seq<Batch>, callback: Callback)
    returns (w': Walk, requests: seq<WalkRequest>, end: WalkEnd)
    ensures w' == w.(count := w'.count) && w.count <= w'.count
    ensures Requested(w, reference, clientVersion, answers, requests)
    ensures PassedBatches(w, callback, answers, |requests| - 1)
    ensures end == AwaitingReply <==> |requests| == |answers| + 1
    ensures end == EndOfWalk <==> |requests| <= |answers| && answers[|requests| - 1] == Oids([])
    ensures end.WalkFailed? <==> |requests| <= |answers| && answers[|requests| - 1].RequestFailed?
    ensures end.WalkFailed? ==> answers[|requests| - 1] == RequestFailed(end.error)
    ensures end == Cancelled ==> CancelledIn(w, callback, answers, |requests| - 1, w'.count)
    ensures end != Cancelled ==> w'.count == w.count + OidsIn(answers[..|requests| - 1])
  {
    w' := w;
    requests := [NextRequest(w, reference, clientVersion)];
    end := AwaitingReply;
    var k := 0;
    while k < |answers|
      invariant k + 1 == |requests| && k <= |answers|
      invariant w' == w.(count := w'.count) && w'.count == w.count + OidsIn(answers[..k])
      invariant Requested(w, reference, clientVersion, answers, requests)
      invariant PassedBatches(w, callback, answers, k)
    {
      match answers[k]
      case RequestFailed(e) =>
        return w', requests, WalkFailed(e);
      case Oids(oids) =>
        if oids == [] {
          return w', requests, EndOfWalk;
        }
        OidsInPrefix(answers, k);
        var cancelled;
        w', cancelled := TakeBatch(w, w', oids, callback);
        if cancelled {
          assert CancelledIn(w, callback, answers, k, w'.count);
          return w', requests, Cancelled;
        }
        PassedBatchesExtend(w, callback, answers, k);
        RequestedExtend(w, reference, clientVersion, answers, requests, oids);
        requests := requests + [NextRequest(w, Some(oids[|oids| - 1]), clientVersion)];
        k := k + 1;
    }
  }
}

=== FILE: trap_protocol_handler.dfy ===
/**
 * The trap receiver's protocol handler: it turns one datagram from a peer
 * into at most one notification of the trap listener, filtering on the
 * peer's address, the message version, the SNMPv3 user and the PDU class,
 * and answers an Inform with a Response (section 4.2.7 of RFC 3416).
 */
module TrapProtocolHandler {
  import opened Outcomes
  import opened PhpValues
  import opened Pdus
  import opened Messages
  import opened ProtocolTrait
  import ClientProtocolHandler

  /** `DEFAULT_OPTIONS`. There is no `transport` entry. */
  const DefaultOptions: Options := map[
    "timeout_connect" := Int(5),
    "timeout_read" := Int(10),
    "ssl_validate_cert" := Bool(true),
    "ssl_allow_self_signed" := Null,
    "ssl_ca_cert" := Null,
    "ssl_peer_name" := Null,
    "whitelist" := Null,
    "version" := Null,
    "community" := Null,
    "engine_id" := Null
  ]

  /** The constructor's `$options + DEFAULT_OPTIONS`: given entries win, the defaults fill the rest. */
  function HandlerOptions(given: Options): (o: Options)
    ensures o.Keys == given.Keys + DefaultOptions.Keys
    ensures forall k :: k in given ==> o[k] == given[k]
    ensures forall k :: k in DefaultOptions && k !in given ==> o[k] == DefaultOptions[k]
  {
    ArrayUnion(given, DefaultOptions)
  }

  /**
   * Unless the caller names a transport, the handler's options name none,
   * so no socket can be opened for an Inform reply. The trap sink that
   * builds this handler always passes its own options, whose defaults set
   * `transport` to `udp` (TrapSink.php:36, 132), so this configuration
   * arises only when the handler is built directly.
   */
  lemma DefaultsNameNoTransport(given: Options, callOptions: Options)
    requires "transport" !in given && "transport" !in callOptions
    ensures AcquireSocket(ProtocolState(None, None), callOptions, HandlerOptions(given)) == SocketFailed(ConnectionFailure)
  {
    assert "transport" !in DefaultOptions;
    assert Lookup(ArrayUnion(callOptions, HandlerOptions(given)), "transport") == Null;
  }

  // ---------------------------------------------------------------------
  // The peer address

  /** `strrpos($s, $c)`: the position of the last occurrence of `c`. */
  function LastIndexOf(s: string, c: char): (r: Option<nat>)
    ensures r.None? <==> forall i :: 0 <= i < |s| ==> s[i] != c
    ensures r.Some? ==> r.value < |s| && s[r.value] == c && forall j :: r.value < j < |s| ==> s[j] != c
  {
    if |s| == 0 then None
    else if s[|s| - 1] == c then Some(|s| - 1)
    else LastIndexOf(s[..|s| - 1], c)
  }

  /** `ltrim($s, $chars)`. */
  function TrimLeft(s: string, chars: set<char>): (t: string)
    ensures |t| <= |s| && t == s[|s| - |t|..]
    ensures forall i :: 0 <= i < |s| - |t| ==> s[i] in chars
    ensures 0 < |t| ==> t[0] !in chars
  {
    if 0 < |s| && s[0] in chars then TrimLeft(s[1..], chars) else s
  }

  /** `rtrim($s, $chars)`. */
  function TrimRight(s: string, chars: set<char>): (t: string)
    ensures |t| <= |s| && t == s[..|t|]
    ensures forall i :: |t| <= i < |s| ==> s[i] in chars
    ensures 0 < |t| ==> t[|t| - 1] !in chars
  {
    if 0 < |s| && s[|s| - 1] in chars then TrimRight(s[..|s| - 1], chars) else s
  }

  /** `trim($s, $chars)`: strip the characters from both ends. */
  function Trim(s: string, chars: set<char>): string {
    TrimRight(TrimLeft(s, chars), chars)
  }

  /** The characters trimmed around an IPv6 address. */
  const Brackets: set<char> := {'[', ']'}

  datatype Peer = Peer(ip: string, port: int)

  /**
   * The first steps of `handle`: the port is the integer after the last
   * `:`, the address is what precedes it with brackets trimmed; an address
   * without `:` is refused.
   */
  function ParsePeerAddress(address: string): (r: Result<Peer, Error>)
    ensures r.Failure? <==> forall i :: 0 <= i < |address| ==> address[i] != ':'
    ensures r.Failure? ==> r.error == InvalidArgument
    ensures r.Success? ==>
              var k := LastIndexOf(address, ':').value;
              && r.value.port == IntOfString(address[k + 1..])
              && r.value.ip == Trim(address[..k], Brackets)
  {
    match LastIndexOf(address, ':')
    case None => Failure(InvalidArgument)
    case Some(k) => Success(Peer(Trim(address[..k], Brackets), IntOfString(address[k + 1..])))
  }

  /** An address that neither starts nor ends with a bracket. */
  predicate Unbracketed(ip: string) {
    0 < |ip| ==> ip[0] !in Brackets && ip[|ip| - 1] !in Brackets
  }

  lemma TrimUnbracketed(ip: string)
    requires Unbracketed(ip)
    ensures Trim(ip, Brackets) == ip
  {
  }

  lemma {:induction false} TrimBracketed(ip: string)
    requires Unbracketed(ip)
    ensures Trim("[" + ip + "]", Brackets) == ip
  {
    var s := "[" + ip + "]";
    assert s[1..] == ip + "]";
    assert TrimLeft(s, Brackets) == TrimLeft(ip + "]", Brackets);
    if 0 < |ip| {
      assert TrimLeft(ip + "]", Brackets) == ip + "]";
    } else {
      assert ip + "]" == "]";
      assert TrimLeft("]", Brackets) == TrimLeft("]"[1..], Brackets);
    }
    assert (ip + "]")[..|ip|] == ip;
  }

  /** The position of the separator before a port in decimal. */
  lemma LastColonBeforePort(prefix: string, port: nat)
    ensures LastIndexOf(prefix + ":" + DecimalString(port), ':') == Some(|prefix|)
  {
    var d := DecimalString(port);
    var s := prefix + ":" + d;
    assert s[|prefix|] == ':';
    forall j | |prefix| < j < |s|
      ensures s[j] != ':'
    {
      assert s[j] == d[j - |prefix| - 1];
    }
    LastIndexOfIsUnique(s, ':', |prefix|);
  }

  /** The last occurrence is the one with none after it. */
  lemma LastIndexOfIsUnique(s: string, c: char, k: nat)
    requires k < |s| && s[k] == c
    requires forall j :: k < j < |s| ==> s[j] != c
    ensures LastIndexOf(s, c) == Some(k)
  {
    var r := LastIndexOf(s, c);
    assert r.Some?;
  }

  /** `host:port` is read back as the host and the port. */
  lemma ParsePlainAddress(ip: string, port: nat)
    requires Unbracketed(ip)
    ensures ParsePeerAddress(ip + ":" + DecimalString(port)) == Success(Peer(ip, port))
  {
    var s := ip + ":" + DecimalString(port);
    LastColonBeforePort(ip, port);
    assert s[..|ip|] == ip;
    assert s[|ip| + 1..] == DecimalString(port);
    TrimUnbracketed(ip);
    IntegerStringRoundTrip(port);
  }

  /** `[host]:port`, the bracketed IPv6 form, is read back as the host and the port. */
  lemma ParseBracketedAddress(ip: string, port: nat)
    requires Unbracketed(ip)
    ensures ParsePeerAddress("[" + ip + "]" + ":" + DecimalString(port)) == Success(Peer(ip, port))
  {
    var b := "[" + ip + "]";
    var s := b + ":" + DecimalString(port);
    LastColonBeforePort(b, port);
    assert s[..|b|] == b;
    assert s[|b| + 1..] == DecimalString(port);
    TrimBracketed(ip);
    IntegerStringRoundTrip(port);
  }

  /** `host:text`, with no `:` in the text, names the port `(int)` reads from it. */
  lemma ParsePortText(ip: string, text: string)
    requires Unbracketed(ip)
    requires forall i :: 0 <= i < |text| ==> text[i] != ':'
    ensures ParsePeerAddress(ip + ":" + text) == Success(Peer(ip, IntOfString(text)))
  {
    var s := ip + ":" + text;
    assert s[|ip|] == ':';
    forall j | |ip| < j < |s|
      ensures s[j] != ':'
    {
      assert s[j] == text[j - |ip| - 1];
    }
    LastIndexOfIsUnique(s, ':', |ip|);
    assert s[..|ip|] == ip;
    assert s[|ip| + 1..] == text;
    TrimUnbracketed(ip);
  }

  /**
   * A port written with an exponent is cast as PHP casts a numeric string:
   * `host:1e3` names port 1000.
   */
  lemma ParseExponentPort(ip: string)
    requires Unbracketed(ip)
    ensures ParsePeerAddress(ip + ":1e3") == Success(Peer(ip, 1000))
  {
    assert ip + ":1e3" == ip + ":" + "1e3";
    assert "1e3"[0] != ':' && "1e3"[1] != ':' && "1e3"[2] != ':';
    ParsePortText(ip, "1e3");
    ExponentIsRead();
  }

  // ---------------------------------------------------------------------
  // The filters

  /** The listener's callbacks the filters consult. */
  datatype TrapListener = TrapListener(
    accept: string -> bool,                                  // `accept($ip)`
    getUsmUser: (EngineId, string, string) -> Option<UsmUser> // `getUsmUser($engineId, $ip, $user)`
  )

  /**
   * `isIpAddressAllowed`. A whitelist array decides by exact membership of
   * the address; a null whitelist defers to the listener; any other value
   * violates the `?array` parameter type and raises a TypeError.
   */
  function IsIpAddressAllowed(ip: string, whitelist: Value, accept: string -> bool): (r: Result<bool, Error>)
    ensures r.Failure? <==> !(whitelist.List? || whitelist.Null?)
    ensures r.Failure? ==> r.error == TypeFailure
    ensures whitelist.List? && r.Success? ==> (r.value <==> exists i :: 0 <= i < |whitelist.items| && whitelist.items[i] == Str(ip))
    ensures whitelist.Null? ==> r == Success(accept(ip))
  {
    match whitelist
    case List(items) => Success(Str(ip) in items)
    case Null => Success(accept(ip))
    case _ => Failure(TypeFailure)
  }

  /** With a whitelist array the listener's `accept` is never consulted. */
  lemma WhitelistOverridesListener(ip: string, items: seq<Value>, accept1: string -> bool, accept2: string -> bool)
    ensures IsIpAddressAllowed(ip, List(items), accept1) == IsIpAddressAllowed(ip, List(items), accept2)
    ensures IsIpAddressAllowed(ip, List(items), accept1).Success?
  {
  }

  /**
   * `isVersionAllowed`: without a filter every version passes; otherwise
   * the public version number must equal it. A filter that is not an
   * integer violates the `?int` parameter type.
   */
  function IsVersionAllowed(version: int, filter: Value): (r: Result<bool, Error>)
    requires IsVersionTag(version)
    ensures r.Failure? <==> !(filter.Null? || filter.Int?)
    ensures r.Failure? ==> r.error == TypeFailure
    ensures filter.Null? ==> r == Success(true)
  {
    match filter
    case Null => Success(true)
    case Int(n) => Success(VersionMap(version).value == n)
    case _ => Failure(TypeFailure)
  }

  /** A version filter of 1, 2 or 3 lets exactly one msgVersion through. */
  lemma VersionFilterSelectsOneTag(n: int, v: int)
    requires IsVersionTag(v) && 1 <= n <= 3
    ensures IsVersionAllowed(v, Int(n)) == Success(true) <==> v == (if n == 3 then 3 else n - 1)
  {
  }

  /** A filter outside 1..3 lets no message through. */
  lemma VersionFilterOutOfRange(n: int, v: int)
    requires IsVersionTag(v) && !(1 <= n <= 3)
    ensures IsVersionAllowed(v, Int(n)) == Success(false)
  {
  }

  /** The PDU classes the receiver passes on. */
  predicate IsNotification(k: PduKind) {
    k == TrapV1Request || k == TrapV2Request || k == InformRequest
  }

  /**
   * `isMessageAllowed`: a message must be present, carry a notification
   * its version allows, and, for v1 and v2c under a community filter,
   * carry exactly that community. A v3 request without a scoped PDU is
   * refused here (the handler never passes one).
   */
  function IsMessageAllowed(message: Option<Request>, options: Options): (r: bool)
    ensures r <==>
              && message.Some? && message.value.Payload().Some?
              && IsNotification(message.value.Payload().value.kind)
              && ProtocolRequest(message.value.Version(), message.value.Payload().value.kind)
              && (!message.value.RequestV3? && Lookup(options, "community") != Null ==>
                    message.value.community == Lookup(options, "community"))
  {
    if message.None? then false
    else
      var m := message.value;
      if m.Payload().None? then false
      else
        var k := m.Payload().value.kind;
        if !IsNotification(k) then false
        else if !IsRequestAllowed(m.Version(), k.Tag()) then false
        else if (m.Version() == 0 || m.Version() == 1) && Lookup(options, "community") != Null then
          m.community == Lookup(options, "community")
        else true
  }

  /** Each version lets through only its own notifications: the SNMPv1 Trap in v1, the others from v2c on. */
  lemma AllowedNotificationsPerVersion(message: Request, options: Options)
    requires IsMessageAllowed(Some(message), options)
    ensures message.Version() == 0 ==> message.Payload().value.kind == TrapV1Request
    ensures message.Version() != 0 ==> message.Payload().value.kind in {TrapV2Request, InformRequest}
  {
  }

  /** Without a community filter the community never matters. */
  lemma CommunityIgnoredWithoutFilter(community1: Value, community2: Value, pdu: Pdu, options: Options)
    requires Lookup(options, "community") == Null
    ensures IsMessageAllowed(Some(RequestV2(community1, pdu)), options) == IsMessageAllowed(Some(RequestV2(community2, pdu)), options)
  {
  }

  // ---------------------------------------------------------------------
  // SNMPv3 traps

  /** A USM user as the listener supplies it. */
  datatype UsmUser = UsmUser(
    user: string, useAuth: bool, usePriv: bool,
    authMech: Option<string>, authPassword: Option<string>,
    privMech: Option<string>, privPassword: Option<string>)

  /**
   * The security levels of section 3 of RFC 3414, each with the
   * credentials it needs: privacy only with authentication, and a level
   * only with its mechanism and password.
   */
  datatype SecurityLevel = NoAuthNoPriv | AuthNoPriv | AuthPriv

  predicate HasCredentialsFor(u: UsmUser, level: SecurityLevel) {
    match level
    case NoAuthNoPriv => !u.useAuth && !u.usePriv
    case AuthNoPriv => u.useAuth && !u.usePriv && u.authMech.Some? && u.authPassword.Some?
    case AuthPriv => u.useAuth && u.usePriv && u.authMech.Some? && u.authPassword.Some?
                       && u.privMech.Some? && u.privPassword.Some?
  }

  /** `isUsmUserValid`. */
  function IsUsmUserValid(u: UsmUser): (r: bool)
    ensures r <==> exists level: SecurityLevel :: HasCredentialsFor(u, level)
  {
    if u.usePriv && !u.useAuth then false
    else if u.useAuth && (u.authPassword.None? || u.authMech.None?) then false
    else if u.usePriv && (u.privPassword.None? || u.privMech.None?) then false
    else
      var level := if !u.useAuth then NoAuthNoPriv else if !u.usePriv then AuthNoPriv else AuthPriv;
      assert HasCredentialsFor(u, level);
      true
  }

  /** A PHP `?string` as an option value. */
  function OptionalString(s: Option<string>): Value {
    if s.Some? then Str(s.value) else Null
  }

  /** The option keys a USM user overrides. */
  const UserKeys: set<string> := {"user", "use_auth", "use_priv", "auth_mech", "auth_pwd", "priv_mech", "priv_pwd"}

  /** `mergeOptionsFromUser`: the user's settings replace exactly the seven USM keys. */
  function MergeOptionsFromUser(u: UsmUser, options: Options): (r: Options)
    ensures r.Keys == options.Keys + UserKeys
    ensures forall k :: k in options && k !in UserKeys ==> r[k] == options[k]
    ensures r["user"] == Str(u.user) && r["use_auth"] == Bool(u.useAuth) && r["use_priv"] == Bool(u.usePriv)
    ensures r["auth_mech"] == OptionalString(u.authMech) && r["auth_pwd"] == OptionalString(u.authPassword)
    ensures r["priv_mech"] == OptionalString(u.privMech) && r["priv_pwd"] == OptionalString(u.privPassword)
  {
    options["user" := Str(u.user)]["use_auth" := Bool(u.useAuth)]["use_priv" := Bool(u.usePriv)]
           ["auth_mech" := OptionalString(u.authMech)]["auth_pwd" := OptionalString(u.authPassword)]
           ["priv_mech" := OptionalString(u.privMech)]["priv_pwd" := OptionalString(u.privPassword)]
  }

  /** Merging a second user replaces everything the first one set. */
  lemma MergeOptionsLastUserWins(u1: UsmUser, u2: UsmUser, options: Options)
    ensures MergeOptionsFromUser(u2, MergeOptionsFromUser(u1, options)) == MergeOptionsFromUser(u2, options)
  {
    var a := MergeOptionsFromUser(u2, MergeOptionsFromUser(u1, options));
    var b := MergeOptionsFromUser(u2, options);
    assert a.Keys == b.Keys;
    forall k | k in a
      ensures a[k] == b[k]
    {
      if k !in UserKeys {
        assert a[k] == MergeOptionsFromUser(u1, options)[k] == options[k];
      }
    }
  }

  /** The security module of the receiver: the incoming transform of a v3 request. */
  datatype TrapSecurityModule = TrapSecurityModule(handleIncomingMessage: (Request, Options) -> SecurityStep<Request>)

  /** `SecurityModelModuleFactory::get`; None when it raises for an unknown model. */
  type TrapModuleFactory = Option<int> -> Option<TrapSecurityModule>

  /** The user the listener supplies for a USM message, if it has an engine id. */
  function UserFor(message: Request, ip: string, listener: TrapListener): Option<UsmUser>
    requires message.RequestV3?
  {
    match message.securityParameters
    case Some(UsmParameters(Some(engineId), _, _, username)) => listener.getUsmUser(engineId, ip, username)
    case _ => None
  }

  /**
   * `handleV3Trap`: the module for the header's security model, USM
   * parameters with an engine id, a valid user from the listener, then the
   * incoming transform under the user's options must give a v3 request
   * whose scoped PDU is present and not an Inform; anything else (an
   * exception included) gives null.
   */
  function HandleV3Trap(message: Request, ip: string, options: Options, factory: TrapModuleFactory,
                        listener: TrapListener): (r: Option<Request>)
    requires message.RequestV3?
    ensures r.Some? ==>
              && factory(message.header.securityModel).Some?
              && UserFor(message, ip, listener).Some? && IsUsmUserValid(UserFor(message, ip, listener).value)
              && factory(message.header.securityModel).value.handleIncomingMessage(
                   message, MergeOptionsFromUser(UserFor(message, ip, listener).value, options)) == Done(r.value)
              && r.value.RequestV3? && r.value.scopedPdu.Some?
              && r.value.scopedPdu.value.pdu.kind != InformRequest
    ensures factory(message.header.securityModel).Some?
            && UserFor(message, ip, listener).Some? && IsUsmUserValid(UserFor(message, ip, listener).value) ==>
              var step := factory(message.header.securityModel).value.handleIncomingMessage(
                            message, MergeOptionsFromUser(UserFor(message, ip, listener).value, options));
              (&& step.Done? && step.value.RequestV3? && step.value.scopedPdu.Some?
               && step.value.scopedPdu.value.pdu.kind != InformRequest) ==> r == Some(step.value)
    ensures message.securityParameters.None? || message.securityParameters.value.OtherParameters? ==> r.None?
    ensures (message.securityParameters.Some? && message.securityParameters.value.UsmParameters?
             && message.securityParameters.value.engineId.None?) ==> r.None?
  {
    match factory(message.header.securityModel)
    case None => None
    case Some(secModule) =>
      match UserFor(message, ip, listener)
      case None => None
      case Some(u) =>
        if !IsUsmUserValid(u) then None
        else
          match secModule.handleIncomingMessage(message, MergeOptionsFromUser(u, options))
          case Raised(_) => None
          case Done(m) =>
            if !m.RequestV3? then None
            else if m.scopedPdu.None? || m.scopedPdu.value.pdu.kind == InformRequest then None
            else Some(m)
  }

  /** An SNMPv3 Inform is never passed on: answering one is not supported. */
  lemma V3InformsAreDropped(message: Request, ip: string, options: Options, factory: TrapModuleFactory,
                            listener: TrapListener, options2: Options)
    requires message.RequestV3?
    requires var r := HandleV3Trap(message, ip, options, factory, listener);
             r.Some?
    ensures !IsMessageAllowed(HandleV3Trap(message, ip, options, factory, listener), options2) ||
            HandleV3Trap(message, ip, options, factory, listener).value.Payload().value.kind == TrapV2Request
  {
  }

  // ---------------------------------------------------------------------
  // Answering an Inform

  /** A datagram the handler writes: the socket it goes out on and the response it carries. */
  datatype Datagram = Datagram(via: Socket, response: Response)

  /** What the promise of `handle` resolves to. */
  datatype Answer =
    | Acknowledged           // `true`: the notification was passed on
    | NoAnswer               // `null`: no response could be sent
    | AnswerWritten(datagram: Datagram)

  datatype Reply = Reply(answer: Answer, state: ProtocolState)

  /** The Response that echoes an Inform: same id, error status, error index and bindings. */
  function EchoResponse(inform: Pdu): (p: Pdu)
    ensures p.kind == Response && p.id == inform.id && p.errorStatus == inform.errorStatus
    ensures p.errorIndex == inform.errorIndex && p.oids == inform.oids
  {
    Pdu(Response, inform.id, inform.errorStatus, inform.errorIndex, inform.oids)
  }

  /**
   * `sendResponse`, as written: only a v1 or v2c envelope is answered, with
   * a v2c Response under its community; the socket comes from `socket()`,
   * which returns the held socket, whatever peer it was opened for. A
   * failure to get a socket resolves null.
   */
  function SendResponse(st: ProtocolState, handlerOptions: Options, peer: Peer, message: Request): (r: Reply)
    ensures !(message.RequestV1? || message.RequestV2?) ==> r == Reply(NoAnswer, st)
    ensures r.answer.AnswerWritten? ==>
              && (message.RequestV1? || message.RequestV2?)
              && r.answer.datagram.response == ResponseV2(message.community, EchoResponse(message.pdu))
              && r.state.socket == Some(r.answer.datagram.via)
    ensures st.socket.Some? && (message.RequestV1? || message.RequestV2?) ==>
              r.answer.AnswerWritten? && r.answer.datagram.via == st.socket.value
  {
    if !(message.RequestV1? || message.RequestV2?) then Reply(NoAnswer, st)
    else
      var response := ResponseV2(message.community, EchoResponse(message.pdu));
      match AcquireSocket(st, map["host" := Str(peer.ip), "port" := Int(peer.port)], handlerOptions)
      case SocketFailed(_) => Reply(NoAnswer, st)
      case SocketReady(socket, st') => Reply(AnswerWritten(Datagram(socket, response)), st')
  }

  /**
   * `sendResponse` as evidently intended: the Response goes to the peer
   * that sent the Inform, on a socket opened for that peer.
   */
  function SendResponseToPeer(st: ProtocolState, handlerOptions: Options, peer: Peer, message: Request): (r: Reply)
    ensures !(message.RequestV1? || message.RequestV2?) ==> r == Reply(NoAnswer, st)
    ensures r.answer.AnswerWritten? ==>
              && (message.RequestV1? || message.RequestV2?)
              && r.answer.datagram == Datagram(UdpSocket(Str(peer.ip), Int(peer.port)),
                                               ResponseV2(message.community, EchoResponse(message.pdu)))
    ensures r.state == st
  {
    if !(message.RequestV1? || message.RequestV2?) then Reply(NoAnswer, st)
    else
      var response := ResponseV2(message.community, EchoResponse(message.pdu));
      match AcquireSocket(st.(socket := None), map["host" := Str(peer.ip), "port" := Int(peer.port)], handlerOptions)
      case SocketFailed(_) => Reply(NoAnswer, st)
      case SocketReady(socket, _) => Reply(AnswerWritten(Datagram(socket, response)), st)
  }

  /**
   * As written, once one Inform has been answered every later answer goes
   * out on the socket opened for the first peer.
   */
  lemma SecondInformAnsweredToFirstPeer(handlerOptions: Options, first: Peer, second: Peer, m1: Request, m2: Request)
    requires Lookup(handlerOptions, "transport") == Str("udp")
    requires m1.RequestV2? && m2.RequestV2?
    ensures var r1 := SendResponse(ProtocolState(None, None), handlerOptions, first, m1);
            var r2 := SendResponse(r1.state, handlerOptions, second, m2);
            && r1.answer.datagram.via == UdpSocket(Str(first.ip), Int(first.port))
            && r2.answer.AnswerWritten? && r2.answer.datagram.via == UdpSocket(Str(first.ip), Int(first.port))
  {
    var o := ArrayUnion(map["host" := Str(first.ip), "port" := Int(first.port)], handlerOptions);
    assert Lookup(o, "transport") == Str("udp") && Lookup(o, "host") == Str(first.ip) && Lookup(o, "port") == Int(first.port);
  }

  /** Corrected, each Inform is answered on a socket opened for its own sender, whatever came before. */
  lemma InformAnsweredToItsPeer(st: ProtocolState, handlerOptions: Options, peer: Peer, m: Request)
    requires Lookup(handlerOptions, "transport") == Str("udp")
    requires m.RequestV1? || m.RequestV2?
    ensures SendResponseToPeer(st, handlerOptions, peer, m).answer ==
            AnswerWritten(Datagram(UdpSocket(Str(peer.ip), Int(peer.port)), ResponseV2(m.community, EchoResponse(m.pdu))))
  {
    var o := ArrayUnion(map["host" := Str(peer.ip), "port" := Int(peer.port)], handlerOptions);
    assert Lookup(o, "transport") == Str("udp") && Lookup(o, "host") == Str(peer.ip) && Lookup(o, "port") == Int(peer.port);
  }

  /** The echo is a reply the client accepts for the Inform's id, when the Inform reports no error. */
  lemma EchoIsAcceptedByClient(community: Value, inform: Pdu)
    requires inform.errorStatus == 0
    ensures ClientProtocolHandler.ValidateResponse(Some(ResponseV2(community, EchoResponse(inform))), inform.id, true)
            == ClientProtocolHandler.Pass
  {
  }

  // ---------------------------------------------------------------------
  // handle

  /** What the listener receives: the peer's address, the public version and the message. */
  datatype TrapContext = TrapContext(ip: string, version: int, message: Request)

  /**
   * One call of `handle`: what it returns (a sync throw or a promise),
   * the contexts passed to the listener, and the handler state after it.
   */
  datatype TrapRun = TrapRun(outcome: Call<Answer>, received: seq<TrapContext>, state: ProtocolState)

  /** A rejected promise with the refusal's reason. */
  function Refuse(st: ProtocolState, why: Refusal): TrapRun {
    TrapRun(Returned(Rejects(Refused(why))), [], st)
  }

  /**
   * The filters after the address check, on a decoded message: the version
   * filter, the v3 sub-flow, the message filter; then the listener is
   * notified and an Inform is answered.
   */
  function Dispatch(st: ProtocolState, handlerOptions: Options, options: Options, peer: Peer, decoded: Option<Request>,
                    listener: TrapListener, factory: TrapModuleFactory): (r: TrapRun)
    ensures r.received != [] ==>
              && decoded.Some?
              && IsVersionAllowed(decoded.value.Version(), Lookup(options, "version")) == Success(true)
              && |r.received| == 1
              && r.received[0].ip == peer.ip
              && IsMessageAllowed(Some(r.received[0].message), options)
              && r.received[0].version == VersionMap(r.received[0].message.Version()).value
              && (decoded.value.RequestV3? ==>
                    Some(r.received[0].message) == HandleV3Trap(decoded.value, peer.ip, options, factory, listener))
              && (!decoded.value.RequestV3? ==> r.received[0].message == decoded.value)
    ensures r.outcome.Returned? && r.outcome.outcome.Resolves? <==> r.received != []
    ensures decoded.None? ==> r == Refuse(st, Undecodable)
  {
    var versionCheck := if decoded.Some? then IsVersionAllowed(decoded.value.Version(), Lookup(options, "version"))
                        else Success(true);
    match versionCheck
    case Failure(e) => TrapRun(Threw(e), [], st)
    case Success(false) => Refuse(st, VersionNotAllowed)
    case Success(true) =>
      var message := if decoded.Some? && decoded.value.RequestV3?
                     then HandleV3Trap(decoded.value, peer.ip, options, factory, listener) else decoded;
      if decoded.Some? && decoded.value.RequestV3? && message.None? then Refuse(st, V3TrapUnusable)
      else if message.None? then Refuse(st, Undecodable)
      else if !IsMessageAllowed(message, options) then Refuse(st, TrapNotAllowed)
      else
        var m := message.value;
        var context := TrapContext(peer.ip, VersionMap(m.Version()).value, m);
        if m.Payload().value.kind == InformRequest then
          var reply := SendResponse(st, handlerOptions, peer, m);
          TrapRun(Returned(Resolves(reply.answer)), [context], reply.state)
        else
          TrapRun(Returned(Resolves(Acknowledged)), [context], st)
  }

  /**
   * `handle`: the per-call options over the handler's, the peer address,
   * the address filter, then decoding (which creates the encoder on first
   * use) and the remaining filters.
   */
  function Handle(st: ProtocolState, handlerOptions: Options, address: string, data: string, callOptions: Options,
                  decode: string -> Option<Request>, made: Encoder, listener: TrapListener,
                  factory: TrapModuleFactory): (r: TrapRun)
    ensures r.received != [] ==>
              && ParsePeerAddress(address).Success?
              && IsIpAddressAllowed(ParsePeerAddress(address).value.ip, Lookup(ArrayMerge(handlerOptions, callOptions), "whitelist"),
                                    listener.accept) == Success(true)
              && |r.received| == 1 && r.received[0].ip == ParsePeerAddress(address).value.ip
              && IsMessageAllowed(Some(r.received[0].message), ArrayMerge(handlerOptions, callOptions))
    ensures ParsePeerAddress(address).Failure? ==> r == TrapRun(Returned(Rejects(InvalidArgument)), [], st)
  {
    var options := ArrayMerge(handlerOptions, callOptions);
    match ParsePeerAddress(address)
    case Failure(e) => TrapRun(Returned(Rejects(e)), [], st)
    case Success(peer) =>
      match IsIpAddressAllowed(peer.ip, Lookup(options, "whitelist"), listener.accept)
      case Failure(e) => TrapRun(Threw(e), [], st)
      case Success(false) => Refuse(st, AddressNotAllowed)
      case Success(true) =>
        var st1 := AcquireEncoder(st, made).1;
        Dispatch(st1, handlerOptions, options, peer, decode(data), listener, factory)
  }

  /**
   * An address the filter refuses is rejected before the datagram is
   * decoded: the data and the decoder make no difference, the listener
   * receives nothing and no encoder is created.
   */
  lemma RefusedAddressIsNeverDecoded(st: ProtocolState, handlerOptions: Options, address: string, callOptions: Options,
                                     data1: string, decode1: string -> Option<Request>, data2: string,
                                     decode2: string -> Option<Request>, made: Encoder, listener: TrapListener,
                                     factory: TrapModuleFactory)
    requires ParsePeerAddress(address).Success?
    requires IsIpAddressAllowed(ParsePeerAddress(address).value.ip,
                                Lookup(ArrayMerge(handlerOptions, callOptions), "whitelist"), listener.accept) != Success(true)
    ensures var r1 := Handle(st, handlerOptions, address, data1, callOptions, decode1, made, listener, factory);
            var r2 := Handle(st, handlerOptions, address, data2, callOptions, decode2, made, listener, factory);
            r1 == r2 && r1.received == [] && r1.state == st
  {
  }

  /** The message the listener would hear of: the v3 sub-flow's result, or the decoded message itself. */
  function Surfaced(d: Request, peer: Peer, options: Options, listener: TrapListener, factory: TrapModuleFactory): Option<Request> {
    if d.RequestV3? then HandleV3Trap(d, peer.ip, options, factory, listener) else Some(d)
  }

  /**
   * The listener hears of `m` from `peer`, with the public version of its
   * envelope; an Inform is answered, anything else resolves `true` and
   * leaves the handler state alone.
   */
  predicate DeliveredAs(r: TrapRun, st: ProtocolState, handlerOptions: Options, peer: Peer, m: Request)
    requires m.Payload().Some?
  {
    && r.received == [TrapContext(peer.ip, VersionMap(m.Version()).value, m)]
    && (m.Payload().value.kind == InformRequest ==>
          var reply := SendResponse(st, handlerOptions, peer, m);
          r.outcome == Returned(Resolves(reply.answer)) && r.state == reply.state)
    && (m.Payload().value.kind != InformRequest ==> r.outcome == Returned(Resolves(Acknowledged)) && r.state == st)
  }

  /**
   * A decoded message of any version that passes the version filter, the
   * v3 sub-flow and the message filter reaches the listener.
   */
  lemma DispatchDelivers(st: ProtocolState, handlerOptions: Options, options: Options, peer: Peer, d: Request,
                         listener: TrapListener, factory: TrapModuleFactory)
    requires IsVersionAllowed(d.Version(), Lookup(options, "version")) == Success(true)
    requires IsMessageAllowed(Surfaced(d, peer, options, listener, factory), options)
    ensures DeliveredAs(Dispatch(st, handlerOptions, options, peer, Some(d), listener, factory), st, handlerOptions, peer,
                        Surfaced(d, peer, options, listener, factory).value)
  {
  }

  /**
   * A notification from an admitted address that passes the filters after
   * it reaches the listener, once; an SNMPv1 Trap, an SNMPv2-Trap or a
   * usable SNMPv3 trap resolves `true`, and an Inform is answered.
   */
  lemma AdmittedNotificationIsDelivered(st: ProtocolState, handlerOptions: Options, address: string, data: string,
                                        callOptions: Options, decode: string -> Option<Request>, made: Encoder,
                                        listener: TrapListener, factory: TrapModuleFactory)
    requires ParsePeerAddress(address).Success?
    requires var options := ArrayMerge(handlerOptions, callOptions);
             && IsIpAddressAllowed(ParsePeerAddress(address).value.ip, Lookup(options, "whitelist"), listener.accept) == Success(true)
             && decode(data).Some?
             && IsVersionAllowed(decode(data).value.Version(), Lookup(options, "version")) == Success(true)
             && IsMessageAllowed(Surfaced(decode(data).value, ParsePeerAddress(address).value, options, listener, factory), options)
    ensures var options := ArrayMerge(handlerOptions, callOptions);
            var peer := ParsePeerAddress(address).value;
            DeliveredAs(Handle(st, handlerOptions, address, data, callOptions, decode, made, listener, factory),
                        AcquireEncoder(st, made).1, handlerOptions, peer,
                        Surfaced(decode(data).value, peer, options, listener, factory).value)
  {
    var options := ArrayMerge(handlerOptions, callOptions);
    var peer := ParsePeerAddress(address).value;
    var st1 := AcquireEncoder(st, made).1;
    assert Handle(st, handlerOptions, address, data, callOptions, decode, made, listener, factory)
        == Dispatch(st1, handlerOptions, options, peer, decode(data), listener, factory);
    DispatchDelivers(st1, handlerOptions, options, peer, decode(data).value, listener, factory);
  }
}
